=== FILE: README.md ===
# y86 to IA-32 translator, modelled in Dafny

`y2x86translate.py` rewrites a y86 program (the teaching instruction set of
Bryant and O'Hallaron) as IA-32 machine code. The input is the hexlified
binary, and the translation works on hexadecimal digits throughout. It runs in
two passes.

- **Pass 1** walks the input with a cursor. It reads the two-digit opcode and
  picks an arm of a long conditional chain. It appends the arm's x86 code to
  the output and moves the cursor on by the arm's fixed length. Before each
  instruction, it records the source position and the output length at that
  moment in the address map `ytox`. For every `jmp`, `jXX` and `call`, it
  copies the 4-byte absolute destination into the output as a placeholder.
  It then records, in `jumpMarker`, the placeholder's output position and
  the destination's digit offset.
- **Pass 2** overwrites each placeholder whose destination is an instruction
  start with the rel32 displacement to that instruction's translation.

The model is organised as follows.

- `Nibbles` holds digit strings (`seq<Nibble>`), reading and writing them as
  numbers, `flipBytes`, and 32-bit two's complement.
- `X86` holds the `modRM` byte packing and the IA-32 opcodes the translator
  emits.
- `Decoder` holds one pass through the dispatch chain. The chain is a table
  of arms in the source's order, and the first matching arm decides. Its
  outcome is a `Step` (code, advance, optional placeholder) or a `Fault`.
- `FirstPass` holds the decode loop. `Walk` is the sequence of positions the
  cursor visits. `Build` folds those visits into the output, the address map
  and the relocation records.
- `Relocation` holds pass 2: displacement, placeholder patching, and
  resolving the whole table.
- `Translator` holds the composition of the two passes and worked examples.
- `Assembly` holds y86 instructions as a datatype with their encoding. It
  relates the translator to the Intel opcode table on encoded programs.

Every operation takes a `Dialect`:

- `AsWritten` behaves as the code does on every input where the code neither loops forever, crashes, copies a short operand nor produces malformed digits from register 8 or 9. Those inputs are listed under Left out.
- `Corrected` repairs the two defects listed under Findings.

The rest of the model is stated for both dialects, and the whole-program
theorem `Assembly.WalkProgram` holds for `Corrected` without restriction.

## Model

| member | source | states |
|---|---|---|
| Nibbles.HexValue | y2x86translate.py:105 | `int(s, 16)` of an n-digit string is below 16^n. `Nibbles.ToHexOfValue` makes it the inverse of rendering |
| Nibbles.LittleEndian | y2x86translate.py:105 | the little-endian value of an n-digit string is below 16^n. `Nibbles.FlipBytesValue` equates it with `int(flipBytes(s), 16)` |
| Nibbles.ToHex | y2x86translate.py:130 | `'%08X'`-style rendering gives exactly `n` digits whose value is `v` |
| Nibbles.ToHexOfValue | y2x86translate.py:130 | rendering the value of a digit string at its own width gives the string back |
| Nibbles.FlipBytes | y2x86translate.py:11-16 | the result has the input's length, and its byte `k` is the input's byte `n/2-1-k` |
| Nibbles.FlipBytesInvolution | y2x86translate.py:11-16 | flipping twice gives the original string |
| Nibbles.FlipBytesAppend | y2x86translate.py:11-16 | flipping a concatenation flips both parts and swaps them |
| Nibbles.FlipBytesValue | y2x86translate.py:105 | `int(flipBytes(dest), 16)` is the little-endian value of `dest` |
| Nibbles.TwosComplement | y2x86translate.py:128 | the result is below 2^32 and congruent to the input modulo 2^32, and reading it as signed gives back any input in the signed 32-bit range |
| X86.ModRM | y2x86translate.py:18-21 | two digits whose value is `64*mod + 8*reg + rm` |
| X86.FieldsOfModRM | y2x86translate.py:18-21 | reading the fields back out of a packed byte gives mod, reg and rm |
| X86.ModRMOfFields | y2x86translate.py:18-21 | every two-digit byte is the packing of its own fields, so packing is onto |
| Relocation.Displacement | y2x86translate.py:126-128 | the value fits 32 bits; for a byte-aligned distance that fits, reading it as signed, doubling and adding the end of the field lands on the target |
| Relocation.FieldDigits | y2x86translate.py:128-130 | eight digits whose little-endian value is the displacement |
| Relocation.Splice | y2x86translate.py:132 | same length, the field holds the new digits, and every other digit is unchanged |
| Relocation.Patch | y2x86translate.py:124-132 | a target outside the address map leaves the output alone; otherwise the field holds the target's displacement and nothing else changes |
| Relocation.Resolve | y2x86translate.py:123-132 | resolving keeps the output's length. Its contents are stated by `Relocation.ResolveUntouched`, `Relocation.ResolvePatched` and `Relocation.ResolveOrderIrrelevant` |
| Relocation.ResolveUntouched | y2x86translate.py:123-132 | a digit no resolvable record covers keeps its pass-1 value |
| Relocation.ResolvePatched | y2x86translate.py:123-132 | a digit inside a resolvable record's field holds that record's displacement digit, whatever the order of the records |
| Relocation.ResolvedField | y2x86translate.py:124-132 | a resolvable record's field ends up holding its displacement |
| Relocation.UnresolvedField | y2x86translate.py:124 | an unresolvable record's field keeps the absolute destination copied in pass 1 |
| Relocation.ResolveOrderIrrelevant | y2x86translate.py:123 | records with disjoint fields give the same output in any order, so dictionary iteration order does not matter |
| Decoder.Emit | y2x86translate.py:36-120 | a success advances at least one byte, stays within the input and emits whole bytes; no arm reports an unknown opcode; only the control-transfer form creates a placeholder, which holds the copied destination and targets twice its little-endian value; that form always succeeds given 10 digits |
| Decoder.DispatchLookup | y2x86translate.py:36-120 | trying the arms one by one is the same as emitting with the first arm that matches, or reporting the opcode unknown when none does |
| Decoder.LookupFinds | y2x86translate.py:36-120 | the lookup returns the first matching arm |
| Decoder.LookupMisses | y2x86translate.py:36-120 | the lookup returns nothing when no arm matches |
| Decoder.TableLookup | y2x86translate.py:36-120 | the chain has an arm for exactly the supported opcodes, found at `ArmIndex`, and every 7x and 8x opcode selects the control transfer (line 85) |
| Decoder.Decode1 | y2x86translate.py:32-120 | a success advances at least one byte, stays within the input, emits whole bytes and closes its code with any placeholder |
| Decoder.Decode1Opcodes | y2x86translate.py:36-120 | a success implies a supported opcode; the opcode is unknown if and only if two digits are present and it is not supported; a placeholder occurs exactly for 7x/8x with ten digits, holding the prefix of lines 86-102, the copied destination, and target `2*LE(dest)` |
| Decoder.DecodeArm | y2x86translate.py:36-120 | a supported opcode is translated by the arm `ArmIndex` selects |
| Decoder.Decode1Size | y2x86translate.py:36-120 | a successful step advances by an amount fixed by the opcode's high digit (`SizeOf`). That is 2 for halt, nop and ret; 4 for the register forms, pushl, popl and int; 12 for irmovl and rmmovl; 10 for jumps and calls; and 8 as written or 12 corrected for mrmovl |
| Decoder.Dispatch | y2x86translate.py:36-120 | whatever arms it tries, a success emits whole bytes, advances at least one byte and stays within the input. `Decoder.DispatchLookup` states which arm it picks |
| Decoder.Decode1Local | y2x86translate.py:34-120 | a successful decode reads nothing beyond itself: appending digits leaves it unchanged |
| FirstPass.Walk | y2x86translate.py:31-120 | a failing loop fails at a position inside the input, at or after the cursor. `FirstPass.WalkFails` states where and why |
| FirstPass.WalkFails | y2x86translate.py:31-120 | a failing loop reaches its failing position: the instructions before it decode successfully and run back to back from the cursor, and the decode at the failing position fails with the reported fault. With `Decoder.Decode1Opcodes`, an unknown opcode is reported with its two digits exactly where the loop meets it |
| FirstPass.WalkOddFails | y2x86translate.py:31-120 | every instruction has even length, so a walk from an even position through an odd-length input fails, and a failure at the last digit is a truncated opcode |
| FirstPass.WalkHead | y2x86translate.py:31-120 | a successful loop's first visit is at the cursor, and the rest is the loop from the cursor plus the advance |
| FirstPass.WalkChain | y2x86translate.py:31-120 | the visits of a successful loop run back to back from the cursor to the end of the input |
| FirstPass.WalkDecodes | y2x86translate.py:31-120 | every visit holds the decode of the input at its position |
| FirstPass.ChainFacts | y2x86translate.py:31-120 | back-to-back visits are strictly increasing and each lies inside the input |
| FirstPass.Decode | y2x86translate.py:23-120 | pass 1 leaves a consistent state (even output; address map increasing, even-valued and inside the output; placeholders byte-aligned, inside the output and non-overlapping); a non-empty input maps 0 to 0; an error lies inside the input |
| FirstPass.Record | y2x86translate.py:33-107 | one iteration adds at most one relocation record. The map entry is stated by `FirstPass.BuildExtends` and `FirstPass.BuildAddr`, and the appended code and record by `FirstPass.BuildOutput` |
| FirstPass.RecordConsistent | y2x86translate.py:33-107 | one loop iteration preserves that consistency |
| FirstPass.RecordAddr | y2x86translate.py:33 | recording an instruction keeps the address map increasing and inside the output |
| FirstPass.RecordRelocs | y2x86translate.py:105 | after one iteration the records stay byte-aligned, inside the output and in order, without overlapping |
| FirstPass.BuildConsistent | y2x86translate.py:31-120 | the whole loop preserves consistency |
| FirstPass.BuildExtends | y2x86translate.py:31-120 | the loop only appends: earlier output, records and map entries survive |
| FirstPass.BuildOutput | y2x86translate.py:37-119 | the output is the concatenation of the visited instructions' codes, and the records appear in visit order |
| FirstPass.CodeAppend | y2x86translate.py:37-119 | the codes of two runs of visits concatenate |
| FirstPass.BuildAddr | y2x86translate.py:33 | a position enters the map exactly when visited, mapped to the output length before its code |
| FirstPass.AddressMap | y2x86translate.py:31-120 | `ytox`'s keys are exactly the visited positions; each maps to the total length of the codes before it; the map is increasing; each visit decodes the input at its position |
| FirstPass.RelocsMembers | y2x86translate.py:105 | a record is present if and only if some visited transfer produced it at its output offset plus the field offset |
| FirstPass.RelocationTable | y2x86translate.py:105 | `jumpMarker` holds exactly one record per visited transfer: field at the instruction's output offset plus the prefix length, target twice the little-endian destination |
| FirstPass.WalkTransfer | y2x86translate.py:85-107 | every visit with a placeholder is a 7x/8x opcode with ten digits; its code is the prefix plus the copied destination, and its target is twice the destination's little-endian value |
| Translator.Translate | y2x86translate.py:23-134 | the translation fails exactly when pass 1 fails, with pass 1's position and fault. Its output is stated by `Translator.TranslateLinks`, `Translator.TranslateUnresolved` and `Translator.TranslateElsewhere` |
| Translator.TranslateLinks | y2x86translate.py:122-132 | in a translated program of at most 2^32 digits, the field of every visited jump or call whose target is a visited instruction holds the digits of the rel32 displacement to that instruction's translation. Read back little-endian and signed, doubled and added to the end of the field, they give the offset of that translation |
| Translator.TranslateUnresolved | y2x86translate.py:124 | in a translated program, the field of a visited jump or call whose target is no visited instruction keeps the digits pass 1 copied there |
| Translator.TranslateElsewhere | y2x86translate.py:37-132 | in a translated program, every digit outside the jump and call fields is the digit at the same offset in the visited instructions' codes, concatenated in visit order |
| Translator.FieldLandsOn | y2x86translate.py:126-128 | in an output of at most 2^32 digits, the digits written for a byte-aligned field and target encode the displacement that leads back to the target |
| Translator.LinkedField | y2x86translate.py:122-132 | each placeholder with a known target holds the rel32 displacement that leads to the target's translation; one without keeps its pass-1 digits |
| Translator.LinkedElsewhere | y2x86translate.py:132 | pass 2 changes no digit outside the placeholders |
| Translator.JumpOverNopTranslates | y2x86translate.py:85-132 | `jmp 0x6; nop; halt` becomes `E9 01000000 90 F4` |
| Translator.UnknownOpcodeStops | y2x86translate.py:32-120 | `nop` followed by the opcode `D0`, which no arm matches, fails with that opcode at digit 2, where the source loop would spin without advancing |
| Translator.OddLengthFails | y2x86translate.py:31-120 | an odd-length input never translates; if the loop gets to the last digit, it reports that digit as a truncated opcode |
| Translator.OddTailStops | y2x86translate.py:36-40 | `nop` followed by a lone `0` fails as truncated at digit 2, where the source loop would spin on the one-character `op` |
| Translator.JumpIntoItselfTranslates | y2x86translate.py:124 | a jump into the middle of an instruction keeps its absolute operand |
| Assembly.DecodesEncoding | y2x86translate.py:36-120 | every encoded y86 instruction, whatever follows, decodes into `X86Code(d, i)`, advancing by its length (8 for an AsWritten mrmovl) and placing a placeholder exactly for transfers. `X86Code` follows the Intel table with two exceptions: an AsWritten cmovXX has its ModR/M operands swapped, and rmmovl or mrmovl with rB = esp would need a SIB byte, which the source never emits |
| Assembly.RegisterMovesAgree | y2x86translate.py:42-84 | rrmovl, cmovXX and OPl translate to x86 code that writes rB and reads rA, except an AsWritten cmovXX |
| Assembly.CmovOperandsSwapped | y2x86translate.py:45-46 | as written, `cmovle %eax, %ebx` becomes `0F 4E C3`, which writes eax from ebx |
| Assembly.WalkProgram | y2x86translate.py:31-120 | on an encoded program, the decode loop visits exactly the instruction starts and translates each instruction `i` into `X86Code(d, i)` (the Intel table, except for the two cases under `Assembly.DecodesEncoding`); under AsWritten this needs a program without mrmovl |
| Assembly.MrmovlDesync | y2x86translate.py:70-72 | as written, `mrmovl 0(%ecx), %eax` is decoded as itself followed by two halts read from its own displacement |

## Left out

- The command line, help text, file reading and writing, `hexlify` and `unhexlify`, and lifting to VEX IR (lines 136-197) are I/O and calls into external libraries.
- Letter case is not modelled. Digits are the values 0-15, so the `.lower()` tests of lines 111-118 match as written, and the mixed case of the output text is invisible.
- `flipBytes` on an odd-length string is not modelled. The translator only calls it on 8 digits.
- Where the Python program loops forever, crashes or silently translates a cut-off instruction, the model returns a `Fault` instead.
  - An opcode outside the chain makes the source loop forever. The model reports `UnknownOpcode` at that position.
  - An instruction cut off by the end of the input is reported as `Truncated`. The source behaves in one of four ways, depending on the arm and on how many digits are left.
    - An arm that reads a register digit past the end raises an IndexError. This happens for rrmovl, cmovXX, OPl, pushl and popl with only the opcode left, and for irmovl, rmmovl and mrmovl with only the opcode left.
    - Some arms silently translate the short remainder. irmovl, rmmovl and mrmovl with 4 to 10 digits left copy the short slice `y86ops[i + 4 : i + 12]` (lines 65, 68, 71). For example, the source translates `30f0` to `b8`, where the model reports `Truncated` at 0. A jump or call with 2 to 6 digits of operand copies the short operand. A final `cd` emits just `cd` (line 119).
    - A jump or call opcode alone, such as a final `70`, leaves `dest` empty, and `int('', 16)` raises a ValueError at line 105.
    - A lone last digit of an odd-length input, other than 7 or 8, makes `op` a single character that no arm of lines 36-120 matches, so the loop spins forever. The model reports `Truncated` there, not `UnknownOpcode` (`Translator.OddLengthFails`). Input produced by `hexlify` always has even length.
  - A register digit `a`-`f` raises a ValueError in `int()`. The model reports `BadRegister` for it.
- Register digits 8 and 9 pass `int()` in the source and produce malformed ModR/M or opcode digits. The model reports `BadRegister` for them too. `pushl` copies its register digit without conversion (line 112), so its arm performs no check, exactly as written.
- A target missing from the address map is silently left holding the absolute operand (line 124). The model follows the code; `Relocation.UnresolvedField` and `Translator.TranslateUnresolved` state it.
- The dispatch chain is a table of arms tried in the source's order (the `Decoder.Table` constant). Lines 85-102 are one arm for every 7x and 8x opcode. `Decoder.TransferPrefix` returns the empty prefix for the unlisted ones, as the code does.
- Decoder.TransferPrefix: its contract states only the prefix's length. Its values are stated by `Decoder.Decode1Opcodes` and `Assembly.DecodesEncoding`.
- Relocation.Resolve: its contract states only the output length. Its contents are stated by `Relocation.ResolveUntouched`, `Relocation.ResolvePatched` and `Relocation.ResolveOrderIrrelevant`.
- FirstPass.Record: its contract states only that at most one record is added. The map entry `ytox[i] = len(x86ops)` of line 33 is stated by `FirstPass.BuildExtends` and `FirstPass.BuildAddr`. The appended code and the record itself are stated by `FirstPass.BuildOutput`.
- FirstPass.Build: it has no contract of its own. Its output, address map and records are stated by `FirstPass.BuildOutput`, `FirstPass.BuildAddr`, `FirstPass.BuildExtends` and `FirstPass.BuildConsistent`.
- FirstPass.Walk: its contract states only that a failure lies inside the input. The decode that fails there, and the successful decodes before it, are stated by `FirstPass.WalkFails`.
- Translator.Translate: its contract states only that it fails exactly when pass 1 does, with pass 1's error, and otherwise applies pass 2 to pass 1's state. Its output is stated by `Translator.TranslateLinks`, `Translator.TranslateUnresolved` and `Translator.TranslateElsewhere`.
- Translator.Link: its contract states only the output length. Its contents are stated by `Translator.LinkedField` and `Translator.LinkedElsewhere`.
- Translator.LinkedField and Translator.TranslateLinks: stated for outputs of at most 2^32 digits, where every displacement fits in rel32. Beyond that the 32-bit wrap-around of line 128 is modelled, but no landing property is claimed.
- `rmmovl` and `mrmovl` with rB = esp: a ModR/M byte with rm = 100 selects a SIB byte in IA-32, which the source never emits. `Assembly.X86Code` reproduces the source's bytes, and neither dialect repairs this.

## Findings

| source | as written | input that shows it | evidently intended | confidence | as-written member | corrected member |
|---|---|---|---|---|---|---|
| y2x86translate.py:70-72 | the mrmovl arm advances the cursor by 8 digits, although the instruction and the bytes it copies span 12 | `50 01 00000000` (`mrmovl 0(%ecx), %eax`) decodes as the load followed by two `halt`s read from its displacement | advance by 12, like rmmovl | not executed | Assembly.MrmovlDesync | Assembly.WalkProgram |
| y2x86translate.py:45-61 | `CMOVcc` is emitted with rA in the ModR/M reg field; `CMOVcc r32, r/m32` writes the reg operand, so the move runs from rB to rA | `21 03` (`cmovle %eax, %ebx`) becomes `0F 4E C3`, `cmovle %ebx, %eax` | ModR/M with reg = rB and rm = rA | not executed | Assembly.CmovOperandsSwapped | Assembly.RegisterMovesAgree |

=== FILE: assembly.dfy ===
/** The source instruction set as instructions rather than digits: the y86
    encoding of each instruction, the IA-32 code the translation table of
    y2x86translate.py:36-120 is meant to produce for it, and what the
    translator does with encoded instructions and whole programs. */
module Assembly {
  import opened Results
  import opened Nibbles
  import opened X86
  import opened Decoder
  import opened FirstPass

  /** A 4-byte immediate, displacement or destination, as eight digits. */
  type Word = w: Hex | |w| == 8 witness [0, 0, 0, 0, 0, 0, 0, 0]

  /** The one-byte operand of `int`. */
  type Vector = v: Hex | |v| == 2 witness [0, 0]

  /** Condition function codes: 0 always, 1 le, 2 l, 3 e, 4 ne, 5 ge, 6 g. */
  type CondFn = f: int | 0 <= f <= 6

  /** A conditional move's function code (rrmovl is code 0). */
  type CmovFn = f: int | 1 <= f <= 6 witness 1

  /** Arithmetic function codes: 0 addl, 1 subl, 2 andl, 3 xorl. */
  type AluFn = f: int | 0 <= f <= 3

  /** The source instructions the translator handles. `rA`/`rB` follow the
      y86 convention: rrmovl, cmovXX and OPl write `rb`; mrmovl loads `ra`. */
  datatype Instr =
    | Halt
    | Nop
    | Rrmovl(ra: Reg, rb: Reg)
    | Cmov(cfn: CmovFn, ra: Reg, rb: Reg)
    | Irmovl(rb: Reg, imm: Word)
    | Rmmovl(ra: Reg, rb: Reg, disp: Word)
    | Mrmovl(ra: Reg, rb: Reg, disp: Word)
    | Opl(op: AluFn, ra: Reg, rb: Reg)
    | Jump(jfn: CondFn, dest: Word)
    | Call(dest: Word)
    | Ret
    | Pushl(ra: Reg)
    | Popl(ra: Reg)
    | Int(vector: Vector)

  /** The y86 encoding: opcode and function digits, then the register byte
      (0xF for an absent register), then any 4-byte constant as it is stored. */
  function Encode(i: Instr): (e: Hex)
    ensures |e| >= 2
  {
    match i
    case Halt => [0, 0]
    case Nop => [1, 0]
    case Rrmovl(ra, rb) => [2, 0, ra, rb]
    case Cmov(fn, ra, rb) => [2, fn, ra, rb]
    case Irmovl(rb, imm) => [3, 0, 0xF, rb] + imm
    case Rmmovl(ra, rb, disp) => [4, 0, ra, rb] + disp
    case Mrmovl(ra, rb, disp) => [5, 0, ra, rb] + disp
    case Opl(op, ra, rb) => [6, op, ra, rb]
    case Jump(fn, dest) => [7, fn] + dest
    case Call(dest) => [8, 0] + dest
    case Ret => [9, 0]
    case Pushl(ra) => [0xA, 0, ra, 0xF]
    case Popl(ra) => [0xB, 0, ra, 0xF]
    case Int(v) => [0xC, 0xD] + v
  }

  /** The IA-32 code for each instruction, by the Intel opcode table:
      `MOV r/m32, r32` for a register move or a store, `MOV r32, r/m32` for
      a load (with rB = esp the table would add a SIB byte, which is not
      emitted here, as in the translator), `CMOVcc r32, r/m32` for a conditional move (whose written
      operand is the ModR/M reg field, which `AsWritten` fills with rA),
      `B8+rd`, `50+rd` and `58+rd` for immediate moves, pushes and pops,
      and `E9`, `0F 8x`, `E8` followed by the still-unresolved operand for
      transfers. */
  function X86Code(d: Dialect, i: Instr): Hex
  {
    match i
    case Halt => HLT
    case Nop => NOP
    case Rrmovl(ra, rb) => MOV_RM_R + ModRM(REGISTER_MODE, ra, rb)
    case Cmov(fn, ra, rb) =>
      CMovcc(fn) + (if d == Corrected then ModRM(REGISTER_MODE, rb, ra) else ModRM(REGISTER_MODE, ra, rb))
    case Irmovl(rb, imm) => MovImm(rb) + imm
    case Rmmovl(ra, rb, disp) => MOV_RM_R + ModRM(DISP32_MODE, ra, rb) + disp
    case Mrmovl(ra, rb, disp) => MOV_R_RM + ModRM(DISP32_MODE, ra, rb) + disp
    case Opl(op, ra, rb) => AluOpcode(op) + ModRM(REGISTER_MODE, ra, rb)
    case Jump(fn, dest) => (if fn == 0 then JMP_REL32 else Jcc(fn)) + dest
    case Call(dest) => CALL_REL32 + dest
    case Ret => RET
    case Pushl(ra) => Push(ra)
    case Popl(ra) => Pop(ra)
    case Int(v) => INT_IMM8 + v
  }

  /** How far the translator's cursor moves past an instruction: its whole
      encoding, except for mrmovl under `AsWritten`. */
  function Advance(d: Dialect, i: Instr): nat
  {
    if d == AsWritten && i.Mrmovl? then 8 else |Encode(i)|
  }

  /** The relocation a transfer needs: its field follows the x86 opcode, and
      its target is the digit offset of the destination byte address. */
  function TransferOf(i: Instr): Option<Transfer>
  {
    match i
    case Jump(fn, dest) => Some(Transfer(if fn == 0 then 2 else 4, 2 * LittleEndian(dest)))
    case Call(dest) => Some(Transfer(2, 2 * LittleEndian(dest)))
    case _ => None
  }

  /** What the translator should make of one instruction. */
  function StepOf(d: Dialect, i: Instr): Step
  {
    Step(X86Code(d, i), Advance(d, i), TransferOf(i))
  }

  lemma RegRegDecodes(d: Dialect, i: Instr, rest: Hex)
    requires i.Rrmovl? || i.Cmov? || i.Opl?
    ensures Decode1(d, Encode(i) + rest) == Ok(StepOf(d, i))
  {
    var s := Encode(i) + rest;
    assert s[..4] == Encode(i);
    DecodeArm(d, s);
  }

  lemma ImmediateDecodes(d: Dialect, rb: Reg, imm: Word, rest: Hex)
    ensures Decode1(d, Encode(Irmovl(rb, imm)) + rest) == Ok(StepOf(d, Irmovl(rb, imm)))
  {
    var s := Encode(Irmovl(rb, imm)) + rest;
    DecodeArm(d, s);
    assert s[0] == 3 && s[1] == 0 && s[3] == rb && s[4..12] == imm;
    assert Table[9].form == Immediate;
  }

  lemma StoreDecodes(d: Dialect, ra: Reg, rb: Reg, disp: Word, rest: Hex)
    ensures Decode1(d, Encode(Rmmovl(ra, rb, disp)) + rest) == Ok(StepOf(d, Rmmovl(ra, rb, disp)))
  {
    var s := Encode(Rmmovl(ra, rb, disp)) + rest;
    DecodeArm(d, s);
    assert s[0] == 4 && s[1] == 0 && s[2] == ra && s[3] == rb && s[4..12] == disp;
    assert Table[10].form == Memory(MOV_RM_R, false);
  }

  lemma LoadDecodes(d: Dialect, ra: Reg, rb: Reg, disp: Word, rest: Hex)
    ensures Decode1(d, Encode(Mrmovl(ra, rb, disp)) + rest) == Ok(StepOf(d, Mrmovl(ra, rb, disp)))
  {
    var s := Encode(Mrmovl(ra, rb, disp)) + rest;
    DecodeArm(d, s);
    assert s[0] == 5 && s[1] == 0 && s[2] == ra && s[3] == rb && s[4..12] == disp;
    assert Table[11].form == Memory(MOV_R_RM, true);
  }

  lemma MemoryDecodes(d: Dialect, i: Instr, rest: Hex)
    requires i.Irmovl? || i.Rmmovl? || i.Mrmovl?
    ensures Decode1(d, Encode(i) + rest) == Ok(StepOf(d, i))
  {
    match i
    case Irmovl(rb, imm) => ImmediateDecodes(d, rb, imm, rest);
    case Rmmovl(ra, rb, disp) => StoreDecodes(d, ra, rb, disp, rest);
    case Mrmovl(ra, rb, disp) => LoadDecodes(d, ra, rb, disp, rest);
  }

  lemma TransferDecodes(d: Dialect, i: Instr, rest: Hex)
    requires i.Jump? || i.Call?
    ensures Decode1(d, Encode(i) + rest) == Ok(StepOf(d, i))
  {
    var s := Encode(i) + rest;
    assert s[2..10] == i.dest;
    assert s[..2] == Encode(i)[..2];
    Decode1Opcodes(d, s);
  }

  lemma ShortDecodes(d: Dialect, i: Instr, rest: Hex)
    requires i.Halt? || i.Nop? || i.Ret? || i.Pushl? || i.Popl? || i.Int?
    ensures Decode1(d, Encode(i) + rest) == Ok(StepOf(d, i))
  {
    var s := Encode(i) + rest;
    assert s[..|Encode(i)|] == Encode(i);
    DecodeArm(d, s);
    match i
    case Halt => assert Table[0].form == Fixed(HLT);
    case Nop => assert Table[1].form == Fixed(NOP);
    case Ret => assert Table[18].form == Fixed(RET);
    case Pushl(_) => assert Table[19].form == PushReg;
    case Popl(_) => assert Table[20].form == PopReg;
    case Int(v) =>
      assert Table[21].form == Interrupt;
      assert s[2..4] == v;
  }

  /** The translator decodes every encoded instruction, whatever follows it,
      into `X86Code(d, i)`, advancing by its length (by 8 for an `AsWritten`
      mrmovl) and relocating exactly the transfers. */
  lemma DecodesEncoding(d: Dialect, i: Instr, rest: Hex)
    ensures Decode1(d, Encode(i) + rest) == Ok(StepOf(d, i))
  {
    if i.Rrmovl? || i.Cmov? || i.Opl? {
      RegRegDecodes(d, i, rest);
    } else if i.Irmovl? || i.Rmmovl? || i.Mrmovl? {
      MemoryDecodes(d, i, rest);
    } else if i.Jump? || i.Call? {
      TransferDecodes(d, i, rest);
    } else {
      ShortDecodes(d, i, rest);
    }
  }

  /** A register-to-register instruction's x86 code writes rB and reads rA,
      as the y86 instruction does, except for a conditional move under
      `AsWritten`. */
  lemma RegisterMovesAgree(d: Dialect, i: Instr)
    requires i.Rrmovl? || i.Cmov? || i.Opl?
    requires d == Corrected || !i.Cmov?
    ensures RegisterOperands(X86Code(d, i)) == Some(RegMove(i.rb, i.ra))
  {
    var code := X86Code(d, i);
    var op := code[..|code| - 2];
    var m := code[|code| - 2..];
    match i
    case Rrmovl(ra, rb) =>
      assert op == MOV_RM_R && m == ModRM(REGISTER_MODE, ra, rb);
      FieldsOfModRM(REGISTER_MODE, ra, rb);
    case Opl(fn, ra, rb) =>
      assert op == AluOpcode(fn) && m == ModRM(REGISTER_MODE, ra, rb);
      FieldsOfModRM(REGISTER_MODE, ra, rb);
    case Cmov(fn, ra, rb) =>
      assert op == CMovcc(fn) && m == ModRM(REGISTER_MODE, rb, ra);
      FieldsOfModRM(REGISTER_MODE, rb, ra);
      assert op[..3] == [0, 0xF, 4];
  }

  /** As written, `cmovle %eax, %ebx` (which copies eax into ebx) becomes
      `0F 4E C3`, which copies ebx into eax. */
  lemma CmovOperandsSwapped()
    ensures Decode1(AsWritten, Encode(Cmov(1, 0, 3))) == Ok(Step([0, 0xF, 4, 0xE, 0xC, 3], 4, None))
    ensures RegisterOperands([0, 0xF, 4, 0xE, 0xC, 3]) == Some(RegMove(0, 3))
  {
    DecodesEncoding(AsWritten, Cmov(1, 0, 3), []);
    assert Encode(Cmov(1, 0, 3)) + [] == Encode(Cmov(1, 0, 3));
    assert ModRM(REGISTER_MODE, 0, 3) == [0xC, 3];
    var code: Hex := [0, 0xF, 4, 0xE, 0xC, 3];
    assert X86Code(AsWritten, Cmov(1, 0, 3)) == CMovcc(1) + [0xC, 3] == code;
    assert code[..4] == [0, 0xF, 4, 0xE] && code[4..] == [0xC, 3];
    assert Fields([0xC, 3]) == ModRMFields(3, 0, 3);
  }

  /** A program's encoding: its instructions back to back. */
  function Program(p: seq<Instr>): Hex
  {
    if p == [] then [] else Encode(p[0]) + Program(p[1..])
  }

  /** The visits the translator should make over program `p` placed at
      digit `at`: one per instruction, at its start. */
  function Visits(d: Dialect, p: seq<Instr>, at: nat): seq<Visit>
  {
    if p == [] then [] else [Visit(at, StepOf(d, p[0]))] + Visits(d, p[1..], at + |Encode(p[0])|)
  }

  /** No instruction of `p` is an mrmovl. */
  predicate NoLoads(p: seq<Instr>)
  {
    forall j :: 0 <= j < |p| ==> !p[j].Mrmovl?
  }

  lemma NoLoadsTail(p: seq<Instr>)
    requires p != [] && NoLoads(p)
    ensures !p[0].Mrmovl? && NoLoads(p[1..])
  {
    assert forall j :: 0 <= j < |p[1..]| ==> p[1..][j] == p[j + 1];
  }

  lemma ProgramSplit(pre: Hex, p: seq<Instr>)
    requires p != []
    ensures pre + Program(p) == (pre + Encode(p[0])) + Program(p[1..])
    ensures (pre + Program(p))[|pre|..] == Encode(p[0]) + Program(p[1..])
  {
    Regroup(pre, Encode(p[0]), Program(p[1..]));
  }

  /** Associativity of concatenation, a built-in fact stated for the solver. */
  lemma Regroup(pre: Hex, e: Hex, r: Hex)
    ensures pre + (e + r) == (pre + e) + r
    ensures (pre + (e + r))[|pre|..] == e + r
  {
  }

  /** Outside the one mrmovl case, the cursor moves over the whole encoding.
      Proved by unfolding both definitions; stated separately to keep the
      case split on the instruction out of its callers. */
  lemma AdvanceWhole(d: Dialect, i: Instr)
    requires d == Corrected || !i.Mrmovl?
    ensures StepOf(d, i).size == |Encode(i)|
  {
  }

  lemma VisitsCons(d: Dialect, pre: Hex, p: seq<Instr>)
    requires p != []
    ensures Visits(d, p, |pre|) == [Visit(|pre|, StepOf(d, p[0]))] + Visits(d, p[1..], |pre + Encode(p[0])|)
  {
    VisitsUnfold(d, p, |pre|);
    ConcatLength(pre, Encode(p[0]));
  }

  /** One unfolding of `Visits`, stated for the solver. */
  lemma VisitsUnfold(d: Dialect, p: seq<Instr>, at: nat)
    requires p != []
    ensures Visits(d, p, at) == [Visit(at, StepOf(d, p[0]))] + Visits(d, p[1..], at + |Encode(p[0])|)
  {
  }

  /** The length of a concatenation, stated for the solver. */
  lemma ConcatLength(a: Hex, b: Hex)
    ensures |a + b| == |a| + |b|
  {
  }

  /** One instruction's worth of the walk over encoded instructions. */
  lemma WalkInstr(d: Dialect, pre: Hex, i: Instr, tail: Hex, vs: seq<Visit>)
    requires d == Corrected || !i.Mrmovl?
    requires Walk(d, (pre + Encode(i)) + tail, |pre + Encode(i)|) == Ok(vs)
    ensures Walk(d, (pre + Encode(i)) + tail, |pre|) == Ok([Visit(|pre|, StepOf(d, i))] + vs)
  {
    var s := (pre + Encode(i)) + tail;
    assert s[|pre|..] == Encode(i) + tail;
    DecodesEncoding(d, i, tail);
    AdvanceWhole(d, i);
    WalkCons(d, s, |pre|, StepOf(d, i), vs);
  }

  /** The walk over a program, from the walk over all but its first
      instruction. */
  lemma WalkProgramStep(d: Dialect, pre: Hex, p: seq<Instr>)
    requires p != [] && (d == Corrected || !p[0].Mrmovl?)
    requires Walk(d, (pre + Encode(p[0])) + Program(p[1..]), |pre + Encode(p[0])|)
      == Ok(Visits(d, p[1..], |pre + Encode(p[0])|))
    ensures Walk(d, pre + Program(p), |pre|) == Ok(Visits(d, p, |pre|))
  {
    VisitsCons(d, pre, p);
    ProgramSplit(pre, p);
    WalkInstr(d, pre, p[0], Program(p[1..]), Visits(d, p[1..], |pre + Encode(p[0])|));
  }

  /** The decode loop, started at the beginning of an encoded program,
      visits exactly its instructions and translates each instruction `i`
      into `X86Code(d, i)` (the Intel table, except for the two cases noted
      at `DecodesEncoding`); under `AsWritten` this holds only for programs
      without mrmovl. */
  lemma {:induction false} WalkProgram(d: Dialect, pre: Hex, p: seq<Instr>)
    requires d == Corrected || NoLoads(p)
    ensures Walk(d, pre + Program(p), |pre|) == Ok(Visits(d, p, |pre|))
    decreases |p|
  {
    if p == [] {
      assert pre + Program(p) == pre;
    } else {
      if d != Corrected {
        NoLoadsTail(p);
      }
      WalkProgram(d, pre + Encode(p[0]), p[1..]);
      WalkProgramStep(d, pre, p);
    }
  }

  /** The AsWritten decode of the zero digits an mrmovl leaves behind. */
  lemma MrmovlDesyncTail(src: Hex)
    requires src == [5, 0, 0, 1, 0, 0, 0, 0, 0, 0, 0, 0]
    ensures Walk(AsWritten, src, 8) == Ok([Visit(8, Step(HLT, 2, None)), Visit(10, Step(HLT, 2, None))])
  {
    assert src[10..] == [0, 0];
    DecodeArm(AsWritten, src[10..]);
    WalkCons(AsWritten, src, 10, Step(HLT, 2, None), []);
    assert [Visit(10, Step(HLT, 2, None))] + [] == [Visit(10, Step(HLT, 2, None))];
    assert src[8..] == [0, 0, 0, 0];
    DecodeArm(AsWritten, src[8..]);
    WalkCons(AsWritten, src, 8, Step(HLT, 2, None), [Visit(10, Step(HLT, 2, None))]);
    assert [Visit(8, Step(HLT, 2, None))] + [Visit(10, Step(HLT, 2, None))]
        == [Visit(8, Step(HLT, 2, None)), Visit(10, Step(HLT, 2, None))];
  }

  /** The AsWritten decode of the load itself: a full `MOV r32, r/m32`
      that advances by 8 digits. */
  lemma MrmovlDesyncHead(src: Hex)
    requires src == [5, 0, 0, 1, 0, 0, 0, 0, 0, 0, 0, 0]
    ensures Decode1(AsWritten, src) == Ok(Step([8, 0xB, 8, 1, 0, 0, 0, 0, 0, 0, 0, 0], 8, None))
  {
    var load := Mrmovl(0, 1, [0, 0, 0, 0, 0, 0, 0, 0]);
    assert Encode(load) + [] == src;
    LoadDecodes(AsWritten, 0, 1, load.disp, []);
    assert ModRM(DISP32_MODE, 0, 1) == [8, 1];
    assert X86Code(AsWritten, load) == MOV_R_RM + [8, 1] + load.disp == [8, 0xB, 8, 1, 0, 0, 0, 0, 0, 0, 0, 0];
    assert StepOf(AsWritten, load) == Step([8, 0xB, 8, 1, 0, 0, 0, 0, 0, 0, 0, 0], 8, None);
  }

  /** As written, the load `mrmovl 0(%ecx), %eax` leaves the cursor on its
      own displacement, whose zero bytes then read as two halts: three
      instructions where there is one. */
  lemma MrmovlDesync()
    ensures Encode(Mrmovl(0, 1, [0, 0, 0, 0, 0, 0, 0, 0])) == [5, 0, 0, 1, 0, 0, 0, 0, 0, 0, 0, 0]
    ensures Walk(AsWritten, [5, 0, 0, 1, 0, 0, 0, 0, 0, 0, 0, 0], 0) == Ok([
      Visit(0, Step([8, 0xB, 8, 1, 0, 0, 0, 0, 0, 0, 0, 0], 8, None)),
      Visit(8, Step(HLT, 2, None)),
      Visit(10, Step(HLT, 2, None))])
  {
    var src: Hex := [5, 0, 0, 1, 0, 0, 0, 0, 0, 0, 0, 0];
    MrmovlDesyncTail(src);
    MrmovlDesyncHead(src);
    assert src[0..] == src;
    var first := Step([8, 0xB, 8, 1, 0, 0, 0, 0, 0, 0, 0, 0], 8, None);
    var rest := [Visit(8, Step(HLT, 2, None)), Visit(10, Step(HLT, 2, None))];
    WalkCons(AsWritten, src, 0, first, rest);
    assert [Visit(0, first)] + rest == [Visit(0, first), Visit(8, Step(HLT, 2, None)), Visit(10, Step(HLT, 2, None))];
  }
}

=== FILE: decoder.dfy ===
/** One iteration of the translator's decode loop (y2x86translate.py:34-120):
    the dispatch on the two-digit opcode at the cursor, the x86 code it
    emits, how far the cursor advances, and the placeholder a jump or call
    leaves. Offsets count hexadecimal digits, not bytes. */
module Decoder {
  import opened Results
  import opened Nibbles
  import opened X86

  /** Which reading of the translation table to use. `AsWritten` follows
      the source line by line. `Corrected` differs in exactly two places:
      mrmovl advances over its whole 6-byte encoding, and cmovXX names the
      destination register in the ModR/M reg field. */
  datatype Dialect = AsWritten | Corrected

  /** The placeholder of a control transfer: where its 4-byte field starts
      within the emitted code, and the target as a source digit offset. */
  datatype Transfer = Transfer(field: nat, target: nat)

  /** What one source instruction contributes: the emitted code, how many
      source digits the cursor advances, and the relocation it needs. */
  datatype Step = Step(code: Hex, size: nat, transfer: Option<Transfer>)

  /** Why an instruction could not be translated. */
  datatype Fault =
    | UnknownOpcode(hi: Nibble, lo: Nibble)
    | Truncated
    | BadRegister

  /** A fault together with the digit offset of the instruction that raised it. */
  datatype DecodeError = DecodeError(at: nat, fault: Fault)

  /** An x86 opcode of one or two bytes. */
  type Opcode = p: Hex | |p| == 2 || |p| == 4 witness [0, 0]

  /** The shapes of translation the dispatch chain knows. */
  datatype Form =
      /** halt, nop, ret: a fixed one-byte opcode. */
    | Fixed(code: Opcode)
      /** rrmovl, cmovXX, OPl: an opcode and a register-direct ModR/M byte;
          `conditional` marks the conditional moves. */
    | TwoRegister(prefix: Opcode, conditional: bool)
      /** irmovl: MOV r32, imm32 and the immediate. */
    | Immediate
      /** rmmovl, mrmovl: an opcode, a disp32 ModR/M byte and the
          displacement; `load` marks mrmovl. */
    | Memory(prefix: Opcode, load: bool)
      /** Every 7x and 8x opcode: a jump or call with a rel32 placeholder. */
    | ControlTransfer
    | PushReg
    | PopReg
    | Interrupt

  /** One arm of the dispatch chain: the opcode digits it tests (any
      function digit when `lo` is None) and what it emits. */
  datatype Entry = Entry(hi: Nibble, lo: Option<Nibble>, form: Form)

  predicate Matches(e: Entry, hi: Nibble, lo: Nibble)
  {
    e.hi == hi && (e.lo.None? || e.lo.value == lo)
  }

  /** The arms of the dispatch chain in the order the source tests them
      (lines 38-120). */
  const Table: seq<Entry> := [
    Entry(0, Some(0), Fixed(HLT)),
    Entry(1, Some(0), Fixed(NOP)),
    Entry(2, Some(0), TwoRegister(MOV_RM_R, false)),
    Entry(2, Some(1), TwoRegister(CMovcc(1), true)),
    Entry(2, Some(2), TwoRegister(CMovcc(2), true)),
    Entry(2, Some(3), TwoRegister(CMovcc(3), true)),
    Entry(2, Some(4), TwoRegister(CMovcc(4), true)),
    Entry(2, Some(5), TwoRegister(CMovcc(5), true)),
    Entry(2, Some(6), TwoRegister(CMovcc(6), true)),
    Entry(3, Some(0), Immediate),
    Entry(4, Some(0), Memory(MOV_RM_R, false)),
    Entry(5, Some(0), Memory(MOV_R_RM, true)),
    Entry(6, Some(0), TwoRegister(ADD_RM_R, false)),
    Entry(6, Some(1), TwoRegister(SUB_RM_R, false)),
    Entry(6, Some(2), TwoRegister(AND_RM_R, false)),
    Entry(6, Some(3), TwoRegister(XOR_RM_R, false)),
    Entry(7, None, ControlTransfer),
    Entry(8, None, ControlTransfer),
    Entry(9, Some(0), Fixed(RET)),
    Entry(0xA, Some(0), PushReg),
    Entry(0xB, Some(0), PopReg),
    Entry(0xC, Some(0xD), Interrupt)
  ]

  /** The opcodes the dispatch chain accepts. Every opcode whose high digit
      is 7 or 8 is taken as a control transfer, listed or not. */
  predicate Supported(hi: Nibble, lo: Nibble)
  {
    || (lo == 0 && (hi <= 1 || 3 <= hi <= 5 || 9 <= hi <= 0xB))
    || (hi == 2 && lo <= 6)
    || (hi == 6 && lo <= 3)
    || hi == 7 || hi == 8
    || (hi == 0xC && lo == 0xD)
  }

  /** The x86 opcode placed before a control transfer's field
      (lines 86-102); empty for an unlisted 7x or 8x opcode. */
  function TransferPrefix(hi: Nibble, lo: Nibble): (p: Hex)
    ensures |p| % 2 == 0 && |p| <= 4
  {
    if hi == 7 && lo == 0 then JMP_REL32
    else if hi == 7 && 1 <= lo <= 6 then Jcc(lo)
    else if hi == 8 && lo == 0 then CALL_REL32
    else []
  }

  /** Facts every successful step satisfies: progress, whole bytes of code,
      and a placeholder that closes the code. */
  ghost predicate WellShaped(step: Step)
  {
    && step.size >= 2
    && |step.code| >= 2 && |step.code| % 2 == 0
    && (step.transfer.Some? ==>
          step.transfer.value.field % 2 == 0 && step.transfer.value.field + 8 == |step.code|)
  }

  /** The relocation facts of a translated control transfer at the start of `s`. */
  ghost predicate TransferStep(s: Hex, step: Step)
  {
    && |s| >= 10
    && step.size == 10
    && step.code == TransferPrefix(s[0], s[1]) + s[2..10]
    && step.transfer == Some(Transfer(|TransferPrefix(s[0], s[1])|, 2 * LittleEndian(s[2..10])))
  }

  /** rrmovl, cmovXX and OPl: an opcode and a register-direct ModR/M byte
      built from the digits at 2 and 3, swapped when `swap` holds. */
  function RegReg(s: Hex, prefix: Opcode, swap: bool): Result<Step, Fault>
    requires |s| >= 2
  {
    if |s| < 4 then Err(Truncated)
    else if s[2] >= 8 || s[3] >= 8 then Err(BadRegister)
    else
      var m := if swap then ModRM(REGISTER_MODE, s[3], s[2]) else ModRM(REGISTER_MODE, s[2], s[3]);
      Ok(Step(prefix + m, 4, None))
  }

  /** rmmovl and mrmovl: an opcode, a disp32 ModR/M byte and the eight
      displacement digits copied as they stand. */
  function MemReg(s: Hex, prefix: Opcode, size: nat): Result<Step, Fault>
    requires |s| >= 2
  {
    if |s| < 12 then Err(Truncated)
    else if s[2] >= 8 || s[3] >= 8 then Err(BadRegister)
    else Ok(Step(prefix + ModRM(DISP32_MODE, s[2], s[3]) + s[4..12], size, None))
  }

  /** The body of one arm of the chain, applied to the instruction at the
      start of `s`. */
  function Emit(d: Dialect, f: Form, s: Hex): (r: Result<Step, Fault>)
    requires |s| >= 2
    ensures r.Ok? ==> WellShaped(r.value) && r.value.size <= |s|
    ensures r.Err? ==> !r.error.UnknownOpcode?
    ensures r.Ok? && r.value.transfer.Some? ==> f.ControlTransfer? && TransferStep(s, r.value)
    ensures f.ControlTransfer? && |s| >= 10 ==> r.Ok? && r.value.transfer.Some?
  {
    match f
    case Fixed(code) => Ok(Step(code, 2, None))
    case TwoRegister(prefix, conditional) => RegReg(s, prefix, conditional && d == Corrected)
    case Immediate =>
      if |s| < 12 then Err(Truncated)
      else if s[3] >= 8 then Err(BadRegister)
      else Ok(Step(MovImm(s[3]) + s[4..12], 12, None))
    case Memory(prefix, load) => MemReg(s, prefix, if load && d == AsWritten then 8 else 12)
    case ControlTransfer =>
      if |s| < 10 then Err(Truncated)
      else
        var prefix := TransferPrefix(s[0], s[1]);
        var dest := s[2..10];
        FlipBytesValue(dest);
        Ok(Step(prefix + dest, 10, Some(Transfer(|prefix|, HexValue(FlipBytes(dest)) * 2))))
    case PushReg =>
      // The register digit is copied without the int() conversion the
      // other forms apply, so it is not range-checked (line 112).
      if |s| < 4 then Err(Truncated) else Ok(Step([5, s[2]], 4, None))
    case PopReg =>
      if |s| < 4 then Err(Truncated)
      else if s[2] >= 8 then Err(BadRegister)
      else Ok(Step(Pop(s[2]), 4, None))
    case Interrupt =>
      if |s| < 4 then Err(Truncated) else Ok(Step(INT_IMM8 + s[2..4], 4, None))
  }

  /** The form of the first arm of `t` that matches the opcode. */
  function Lookup(t: seq<Entry>, hi: Nibble, lo: Nibble): Option<Form>
    decreases |t|
  {
    if t == [] then None
    else if Matches(t[0], hi, lo) then Some(t[0].form)
    else Lookup(t[1..], hi, lo)
  }

  /** Runs the arms of `t` in order and emits with the first that matches;
      an opcode no arm matches is unknown. */
  function Dispatch(d: Dialect, s: Hex, t: seq<Entry>): (r: Result<Step, Fault>)
    requires |s| >= 2
    ensures r.Ok? ==> WellShaped(r.value) && r.value.size <= |s|
    decreases |t|
  {
    if t == [] then Err(UnknownOpcode(s[0], s[1]))
    else if Matches(t[0], s[0], s[1]) then Emit(d, t[0].form, s)
    else Dispatch(d, s, t[1..])
  }

  /** Dispatching emits with the form the lookup finds. */
  lemma {:induction false} DispatchLookup(d: Dialect, s: Hex, t: seq<Entry>)
    requires |s| >= 2
    ensures Dispatch(d, s, t) == match Lookup(t, s[0], s[1])
      case None => Err(UnknownOpcode(s[0], s[1]))
      case Some(f) => Emit(d, f, s)
    decreases |t|
  {
    if t != [] && !Matches(t[0], s[0], s[1]) {
      DispatchLookup(d, s, t[1..]);
    }
  }

  /** The lookup finds the first matching arm. */
  lemma {:induction false} LookupFinds(t: seq<Entry>, hi: Nibble, lo: Nibble, k: nat)
    requires k < |t| && Matches(t[k], hi, lo)
    requires forall j :: 0 <= j < k ==> !Matches(t[j], hi, lo)
    ensures Lookup(t, hi, lo) == Some(t[k].form)
    decreases k
  {
    if k > 0 {
      assert forall j :: 0 <= j < k - 1 ==> t[1..][j] == t[j + 1];
      LookupFinds(t[1..], hi, lo, k - 1);
    }
  }

  /** The lookup finds nothing when no arm matches. */
  lemma {:induction false} LookupMisses(t: seq<Entry>, hi: Nibble, lo: Nibble)
    requires forall j :: 0 <= j < |t| ==> !Matches(t[j], hi, lo)
    ensures Lookup(t, hi, lo) == None
    decreases |t|
  {
    if t != [] {
      assert forall j :: 0 <= j < |t| - 1 ==> t[1..][j] == t[j + 1];
      LookupMisses(t[1..], hi, lo);
    }
  }

  /** An unsupported opcode matches no arm of the chain. */
  lemma TableMisses(hi: Nibble, lo: Nibble)
    requires !Supported(hi, lo)
    ensures Lookup(Table, hi, lo) == None
  {
    forall j | 0 <= j < |Table|
      ensures !Matches(Table[j], hi, lo)
    {
      assert j in {0, 1, 2, 3, 4, 5, 6, 7, 8, 9, 10, 11, 12, 13, 14, 15, 16, 17, 18, 19, 20, 21};
    }
    LookupMisses(Table, hi, lo);
  }

  /** The position in the chain of the arm a supported opcode selects. */
  function ArmIndex(hi: Nibble, lo: Nibble): (k: nat)
    requires Supported(hi, lo)
    ensures k < |Table|
  {
    if hi == 2 then 2 + lo
    else if hi == 6 then 12 + lo
    else if hi <= 1 then hi
    else if hi <= 5 then hi + 6
    else hi + 9
  }

  /** A supported opcode other than 2x and 6x matches the arm of its
      high digit, which is the control transfer exactly for 7x and 8x. */
  lemma TableHitsSingle(hi: Nibble, lo: Nibble)
    requires Supported(hi, lo) && hi != 2 && hi != 6
    ensures Lookup(Table, hi, lo) == Some(Table[ArmIndex(hi, lo)].form)
    ensures Lookup(Table, hi, lo) == Some(ControlTransfer) <==> hi == 7 || hi == 8
  {
    forall j | 0 <= j < ArmIndex(hi, lo)
      ensures !Matches(Table[j], hi, lo)
    {
      assert j in {0, 1, 2, 3, 4, 5, 6, 7, 8, 9, 10, 11, 12, 13, 14, 15, 16, 17, 18, 19, 20, 21};
    }
    LookupFinds(Table, hi, lo, ArmIndex(hi, lo));
  }

  /** A supported 2x opcode matches a register-to-register arm. */
  lemma TableHitsMoves(lo: Nibble)
    requires lo <= 6
    ensures Lookup(Table, 2, lo) == Some(Table[ArmIndex(2, lo)].form)
    ensures Table[ArmIndex(2, lo)].form.TwoRegister?
  {
    forall j | 0 <= j < 2 + lo
      ensures !Matches(Table[j], 2, lo)
    {
      assert j in {0, 1, 2, 3, 4, 5, 6, 7, 8, 9, 10, 11, 12, 13, 14, 15, 16, 17, 18, 19, 20, 21};
    }
    LookupFinds(Table, 2, lo, 2 + lo);
  }

  /** A supported 6x opcode matches a register-to-register arm. */
  lemma TableHitsArithmetic(lo: Nibble)
    requires lo <= 3
    ensures Lookup(Table, 6, lo) == Some(Table[ArmIndex(6, lo)].form)
    ensures Table[ArmIndex(6, lo)].form.TwoRegister?
  {
    forall j | 0 <= j < 12 + lo
      ensures !Matches(Table[j], 6, lo)
    {
      assert j in {0, 1, 2, 3, 4, 5, 6, 7, 8, 9, 10, 11, 12, 13, 14, 15, 16, 17, 18, 19, 20, 21};
    }
    LookupFinds(Table, 6, lo, 12 + lo);
  }

  /** The chain has an arm for exactly the supported opcodes, the one at
      `ArmIndex`, and its arm for a 7x or 8x opcode is the control transfer. */
  lemma TableLookup(hi: Nibble, lo: Nibble)
    ensures Lookup(Table, hi, lo).Some? <==> Supported(hi, lo)
    ensures Supported(hi, lo) ==> Lookup(Table, hi, lo) == Some(Table[ArmIndex(hi, lo)].form)
    ensures Lookup(Table, hi, lo) == Some(ControlTransfer) <==> hi == 7 || hi == 8
  {
    if !Supported(hi, lo) {
      TableMisses(hi, lo);
    } else if hi == 2 {
      TableHitsMoves(lo);
    } else if hi == 6 {
      TableHitsArithmetic(lo);
    } else {
      TableHitsSingle(hi, lo);
    }
  }

  /** Translates the instruction at the start of `s` (one pass through the
      dispatch chain of lines 34-120). */
  function Decode1(d: Dialect, s: Hex): (r: Result<Step, Fault>)
    requires |s| > 0
    ensures r.Ok? ==> WellShaped(r.value) && r.value.size <= |s|
  {
    if |s| < 2 then Err(Truncated) else Dispatch(d, s, Table)
  }

  /** Which opcodes translate, and what a control transfer becomes: its
      x86 prefix followed by the four operand bytes as they stand, with a
      placeholder for twice their little-endian value. */
  lemma Decode1Opcodes(d: Dialect, s: Hex)
    requires |s| > 0
    ensures var r := Decode1(d, s);
      && (r.Ok? ==> Supported(s[0], s[1]))
      && (r.Err? && r.error.UnknownOpcode? <==> |s| >= 2 && !Supported(s[0], s[1]))
      && (r.Err? && r.error.UnknownOpcode? ==> r.error == UnknownOpcode(s[0], s[1]))
      && (r.Ok? && r.value.transfer.Some? ==> (s[0] == 7 || s[0] == 8) && TransferStep(s, r.value))
      && (|s| >= 10 && (s[0] == 7 || s[0] == 8) ==> r.Ok? && r.value.transfer.Some?)
  {
    if |s| >= 2 {
      TableLookup(s[0], s[1]);
      DispatchLookup(d, s, Table);
    }
  }

  /** A supported opcode is translated by the body of its arm. */
  lemma DecodeArm(d: Dialect, s: Hex)
    requires |s| >= 2 && Supported(s[0], s[1])
    ensures Decode1(d, s) == Emit(d, Table[ArmIndex(s[0], s[1])].form, s)
  {
    TableLookup(s[0], s[1]);
    DispatchLookup(d, s, Table);
  }

  /** How far the loop advances past an instruction with high opcode digit
      `hi`, in digits (the `i +=` of each arm); 0 where no arm accepts `hi`. */
  function SizeOf(d: Dialect, hi: Nibble): nat
  {
    if hi <= 1 || hi == 9 then 2
    else if hi == 2 || hi == 6 || 0xA <= hi <= 0xC then 4
    else if hi == 3 || hi == 4 then 12
    else if hi == 5 then (if d == AsWritten then 8 else 12)
    else if hi == 7 || hi == 8 then 10
    else 0
  }

  /** The advance of a successful step depends on the opcode's high digit
      alone. */
  lemma Decode1Size(d: Dialect, s: Hex)
    requires |s| > 0 && Decode1(d, s).Ok?
    ensures Decode1(d, s).value.size == SizeOf(d, s[0])
  {
    Decode1Opcodes(d, s);
    DecodeArm(d, s);
  }

  /** An instruction that translates translates the same way whatever
      follows it. */
  lemma Decode1Local(d: Dialect, s: Hex, t: Hex)
    requires |s| > 0 && Decode1(d, s).Ok?
    ensures Decode1(d, s + t) == Decode1(d, s)
  {
    var u := s + t;
    assert u[..|s|] == s;
    DispatchLookup(d, s, Table);
    DispatchLookup(d, u, Table);
    if |s| >= 4 {
      assert u[2..4] == s[2..4];
    }
    if |s| >= 10 {
      assert u[2..10] == s[2..10];
    }
    if |s| >= 12 {
      assert u[4..12] == s[4..12];
    }
  }
}

=== FILE: firstpass.dfy ===
/** Pass 1 of the translator (y2x86translate.py:31-120). The decode loop is
    modelled in two stages that together compute what the loop computes:
    `Walk` lists the cursor positions the loop visits and what it decodes at
    each, and `Build` applies those iterations, in order, to the three
    structures the loop fills (`x86ops`, `ytox`, `jumpMarker`). */
module FirstPass {
  import opened Results
  import opened Nibbles
  import opened Relocation
  import opened Decoder

  /** The three structures pass 1 builds: the output digits (`x86ops`), the
      address map from source to output digit offsets (`ytox`) and the
      relocation records (`jumpMarker`). */
  datatype Pass1 = Pass1(out: Hex, addr: map<nat, nat>, relocs: seq<Reloc>)

  /** One iteration of the loop: the cursor position and what was decoded there. */
  datatype Visit = Visit(at: nat, step: Step)

  /** The visits run back to back from position `i` to position `n`. */
  ghost predicate Chain(vs: seq<Visit>, i: nat, n: nat)
    decreases |vs|
  {
    if vs == [] then i == n
    else vs[0].at == i && WellShaped(vs[0].step) && Chain(vs[1..], i + vs[0].step.size, n)
  }

  /** The iterations of the loop from cursor `i` to the end of the input
      (the `while i < len(y86ops)` of line 32). The source never leaves the
      loop on an opcode it does not know; here that, a missing operand and
      an out-of-range register stop the walk with an error. */
  function Walk(d: Dialect, src: Hex, i: nat): (r: Result<seq<Visit>, DecodeError>)
    requires i <= |src|
    ensures r.Err? ==> i <= r.error.at < |src|
    decreases |src| - i
  {
    if i == |src| then Ok([])
    else
      match Decode1(d, src[i..])
      case Err(f) => Err(DecodeError(i, f))
      case Ok(step) =>
        match Walk(d, src, i + step.size)
        case Err(e) => Err(e)
        case Ok(vs) => Ok([Visit(i, step)] + vs)
  }

  /** One step of the walk, for computing it on a given input. */
  lemma WalkCons(d: Dialect, src: Hex, i: nat, step: Step, vs: seq<Visit>)
    requires i < |src| && Decode1(d, src[i..]) == Ok(step)
    requires i + step.size <= |src| && Walk(d, src, i + step.size) == Ok(vs)
    ensures Walk(d, src, i) == Ok([Visit(i, step)] + vs)
  {
  }

  /** The first visit of a non-empty walk and the walk after it. */
  lemma WalkHead(d: Dialect, src: Hex, i: nat)
    requires i < |src| && Walk(d, src, i).Ok?
    ensures var vs := Walk(d, src, i).value;
      && |vs| > 0 && vs[0].at == i && Decode1(d, src[i..]) == Ok(vs[0].step)
      && i + vs[0].step.size <= |src| && Walk(d, src, i + vs[0].step.size) == Ok(vs[1..])
  {
  }

  /** The visits of a walk run back to back to the end of the input. */
  lemma {:induction false} WalkChain(d: Dialect, src: Hex, i: nat)
    requires i <= |src| && Walk(d, src, i).Ok?
    ensures Chain(Walk(d, src, i).value, i, |src|)
    decreases |src| - i
  {
    if i < |src| {
      WalkHead(d, src, i);
      var vs := Walk(d, src, i).value;
      assert vs[1..] == Walk(d, src, i + vs[0].step.size).value;
      WalkChain(d, src, i + vs[0].step.size);
    }
  }

  /** Each visit records what the instruction at its position decodes to. */
  lemma {:induction false} WalkDecodes(d: Dialect, src: Hex, i: nat, j: int)
    requires i <= |src| && Walk(d, src, i).Ok?
    requires 0 <= j < |Walk(d, src, i).value|
    ensures var v := Walk(d, src, i).value[j];
      v.at < |src| && Decode1(d, src[v.at..]) == Ok(v.step)
    decreases |src| - i
  {
    var vs := Walk(d, src, i).value;
    WalkHead(d, src, i);
    if j > 0 {
      var i' := i + vs[0].step.size;
      var ws := Walk(d, src, i').value;
      assert ws == vs[1..];
      assert ws[j - 1] == vs[j];
      WalkDecodes(d, src, i', j - 1);
    }
  }

  /** A failing walk fails where the loop gets to: the visits `vs` before
      the failure decode successfully and run back to back from the cursor
      to the failing position, and the decode there fails with the reported
      fault. */
  lemma {:induction false} WalkFails(d: Dialect, src: Hex, i: nat) returns (vs: seq<Visit>)
    requires i <= |src| && Walk(d, src, i).Err?
    ensures var e := Walk(d, src, i).error;
      && e.at < |src|
      && Decode1(d, src[e.at..]) == Err(e.fault)
      && Chain(vs, i, e.at)
      && forall j :: 0 <= j < |vs| ==> vs[j].at < |src| && Decode1(d, src[vs[j].at..]) == Ok(vs[j].step)
    decreases |src| - i
  {
    match Decode1(d, src[i..])
    case Err(f) =>
      vs := [];
    case Ok(step) =>
      var rest := WalkFails(d, src, i + step.size);
      vs := [Visit(i, step)] + rest;
      assert vs[1..] == rest;
      assert forall j :: 0 < j < |vs| ==> vs[j] == rest[j - 1];
  }

  /** Every instruction has an even length, so a walk from an even position
      through an odd-length input never reaches its end: it fails, and if it
      gets as far as the last digit, that lone digit is reported as a
      truncated opcode. */
  lemma {:induction false} WalkOddFails(d: Dialect, src: Hex, i: nat)
    requires i <= |src| && i % 2 == 0 && |src| % 2 == 1
    ensures Walk(d, src, i).Err?
    ensures Walk(d, src, i).error.at == |src| - 1 ==> Walk(d, src, i).error.fault == Truncated
    decreases |src| - i
  {
    if i + 1 < |src| {
      match Decode1(d, src[i..])
      case Err(f) =>
      case Ok(step) =>
        Decode1Size(d, src[i..]);
        WalkOddFails(d, src, i + step.size);
    }
  }

  /** Positions in a chain lie in `[i, n)`, strictly increase, and each is
      the previous one plus that instruction's advance. */
  lemma {:induction false} ChainFacts(vs: seq<Visit>, i: nat, n: nat)
    requires Chain(vs, i, n)
    ensures i <= n
    ensures forall j :: 0 <= j < |vs| ==> i <= vs[j].at && vs[j].at + vs[j].step.size <= n && WellShaped(vs[j].step)
    ensures forall j :: 0 <= j < |vs| - 1 ==> vs[j + 1].at == vs[j].at + vs[j].step.size
    ensures forall j, j' :: 0 <= j < j' < |vs| ==> vs[j].at < vs[j'].at
    decreases |vs|
  {
    if vs != [] {
      ChainFacts(vs[1..], i + vs[0].step.size, n);
      assert forall j :: 0 < j < |vs| ==> vs[j] == vs[1..][j - 1];
    }
  }

  /** The effect of one loop iteration: the map entry of line 33, the
      appended code, and the relocation record of line 105, whose key is the
      output offset of the placeholder. */
  function Record(st: Pass1, i: nat, step: Step): (r: Pass1)
    ensures |st.relocs| <= |r.relocs| <= |st.relocs| + 1
  {
    var relocs :=
      match step.transfer
      case None => st.relocs
      case Some(t) => st.relocs + [Reloc(|st.out| + t.field, t.target)];
    Pass1(st.out + step.code, st.addr[i := |st.out|], relocs)
  }

  /** Applies the iterations in order. */
  function Build(st: Pass1, vs: seq<Visit>): (r: Pass1)
    decreases |vs|
  {
    if vs == [] then st else Build(Record(st, vs[0].at, vs[0].step), vs[1..])
  }

  /** Pass 1 over the whole input. */
  function Decode(d: Dialect, src: Hex): (r: Result<Pass1, DecodeError>)
    ensures r.Ok? <==> Walk(d, src, 0).Ok?
    ensures r.Ok? ==> Consistent(r.value, |src|)
    ensures r.Ok? && |src| > 0 ==> 0 in r.value.addr && r.value.addr[0] == 0
    ensures r.Err? ==> r.error.at < |src|
  {
    match Walk(d, src, 0)
    case Err(e) => Err(e)
    case Ok(vs) =>
      var empty := Pass1([], map[], []);
      WalkChain(d, src, 0);
      BuildConsistent(empty, vs, 0, |src|);
      BuildExtends(empty, vs, 0, |src|);
      Ok(Build(empty, vs))
  }

  /** What holds of the structures whenever the cursor is at `i`: the output
      is whole bytes; every key is a position already passed, mapped to an
      even offset inside the output; offsets grow with keys; placeholders lie
      inside the output, in increasing order, without overlapping. */
  ghost predicate Consistent(st: Pass1, i: nat)
  {
    && |st.out| % 2 == 0
    && (forall k :: k in st.addr ==> k < i && st.addr[k] < |st.out| && st.addr[k] % 2 == 0)
    && (forall k, k' :: k in st.addr && k' in st.addr && k < k' ==> st.addr[k] < st.addr[k'])
    && (forall j :: 0 <= j < |st.relocs| ==> st.relocs[j].at % 2 == 0 && st.relocs[j].at + 8 <= |st.out|)
    && (forall j, j' :: 0 <= j < j' < |st.relocs| ==> st.relocs[j].at + 8 <= st.relocs[j'].at)
  }

  lemma RecordConsistent(st: Pass1, i: nat, step: Step)
    requires Consistent(st, i) && WellShaped(step)
    ensures Consistent(Record(st, i, step), i + step.size)
  {
    RecordAddr(st, i, step);
    RecordRelocs(st, i, step);
  }

  /** Recording keeps the address map increasing and inside the output. */
  lemma RecordAddr(st: Pass1, i: nat, step: Step)
    requires Consistent(st, i) && WellShaped(step)
    ensures var a := Record(st, i, step).addr; var n := |st.out + step.code|;
      && (forall k :: k in a ==> k < i + step.size && a[k] < n && a[k] % 2 == 0)
      && (forall k, k' :: k in a && k' in a && k < k' ==> a[k] < a[k'])
  {
    var a := st.addr[i := |st.out|];
    assert Record(st, i, step).addr == a;
    forall k, k' | k in a && k' in a && k < k'
      ensures a[k] < a[k']
    {
      if k' == i {
        assert st.addr[k] < |st.out|;
      }
    }
  }

  /** After recording, the placeholders stay byte-aligned, inside the
      output and in order without overlapping. */
  lemma RecordRelocs(st: Pass1, i: nat, step: Step)
    requires Consistent(st, i) && WellShaped(step)
    ensures var rs := Record(st, i, step).relocs; var n := |st.out + step.code|;
      && (forall j :: 0 <= j < |rs| ==> rs[j].at % 2 == 0 && rs[j].at + 8 <= n)
      && (forall j, j' :: 0 <= j < j' < |rs| ==> rs[j].at + 8 <= rs[j'].at)
  {
    if step.transfer.Some? {
      var t := step.transfer.value;
      var rs := st.relocs + [Reloc(|st.out| + t.field, t.target)];
      assert Record(st, i, step).relocs == rs;
      assert forall j :: 0 <= j < |st.relocs| ==> rs[j] == st.relocs[j];
    }
  }

  lemma {:induction false} BuildConsistent(st: Pass1, vs: seq<Visit>, i: nat, n: nat)
    requires Consistent(st, i) && Chain(vs, i, n)
    ensures Consistent(Build(st, vs), n)
    decreases |vs|
  {
    if vs != [] {
      RecordConsistent(st, i, vs[0].step);
      BuildConsistent(Record(st, i, vs[0].step), vs[1..], i + vs[0].step.size, n);
    }
  }

  /** Later iterations only append: the output and the records grow at the
      end, and map entries for positions before the cursor stay as they are;
      the first iteration maps its position to the output length before it. */
  lemma {:induction false} BuildExtends(st: Pass1, vs: seq<Visit>, i: nat, n: nat)
    requires Chain(vs, i, n)
    ensures var b := Build(st, vs);
      && st.out <= b.out && st.relocs <= b.relocs
      && (forall k :: k in st.addr && k < i ==> k in b.addr && b.addr[k] == st.addr[k])
      && (vs != [] ==> i in b.addr && b.addr[i] == |st.out|)
    decreases |vs|
  {
    if vs != [] {
      var st' := Record(st, i, vs[0].step);
      BuildExtends(st', vs[1..], i + vs[0].step.size, n);
    }
  }

  /** The output the iterations append: their codes, in order. */
  function Code(vs: seq<Visit>): Hex
    decreases |vs|
  {
    if vs == [] then [] else vs[0].step.code + Code(vs[1..])
  }

  /** The output offset at which the `j`-th visited instruction's code starts:
      the total length of the codes before it. */
  function Offset(vs: seq<Visit>, j: nat): nat
    requires j <= |vs|
  {
    |Code(vs[..j])|
  }

  /** The records the iterations append when the output before them is `o`
      digits long. */
  function Relocs(vs: seq<Visit>, o: nat): seq<Reloc>
    decreases |vs|
  {
    if vs == [] then []
    else
      var mine := match vs[0].step.transfer
        case None => []
        case Some(t) => [Reloc(o + t.field, t.target)];
      mine + Relocs(vs[1..], o + |vs[0].step.code|)
  }

  lemma {:induction false} CodeAppend(vs: seq<Visit>, ws: seq<Visit>)
    ensures Code(vs + ws) == Code(vs) + Code(ws)
    decreases |vs|
  {
    if vs == [] {
      assert vs + ws == ws;
    } else {
      assert (vs + ws)[1..] == vs[1..] + ws;
      CodeAppend(vs[1..], ws);
    }
  }

  /** The output is the concatenation of the per-instruction codes, and the
      records are one per control transfer, keyed by the offset of its
      placeholder. */
  lemma {:induction false} BuildOutput(st: Pass1, vs: seq<Visit>)
    ensures Build(st, vs).out == st.out + Code(vs)
    ensures Build(st, vs).relocs == st.relocs + Relocs(vs, |st.out|)
    decreases |vs|
  {
    if vs != [] {
      BuildOutput(Record(st, vs[0].at, vs[0].step), vs[1..]);
    }
  }

  /** The address map after the iterations: each visited position maps to
      the output length before its code, and nothing else is added. */
  lemma {:induction false} BuildAddr(st: Pass1, vs: seq<Visit>, i: nat, n: nat, k: nat)
    requires Chain(vs, i, n)
    requires forall k' :: k' in st.addr ==> k' < i
    ensures k in Build(st, vs).addr <==> k in st.addr || exists j :: 0 <= j < |vs| && vs[j].at == k
    ensures forall j :: 0 <= j < |vs| && vs[j].at == k ==>
      Build(st, vs).addr[k] == |st.out| + Offset(vs, j)
    decreases |vs|
  {
    if vs != [] {
      var st' := Record(st, i, vs[0].step);
      var rest := vs[1..];
      BuildAddr(st', rest, i + vs[0].step.size, n, k);
      BuildExtends(st', rest, i + vs[0].step.size, n);
      forall j | 0 <= j < |vs| && vs[j].at == k
        ensures Build(st, vs).addr[k] == |st.out| + Offset(vs, j)
      {
        if j == 0 {
          assert vs[..0] == [];
        } else {
          assert rest[j - 1] == vs[j];
          assert vs[..j] == [vs[0]] + rest[..j - 1];
          assert Code(vs[..j]) == vs[0].step.code + Code(rest[..j - 1]);
        }
      }
      if exists j :: 0 <= j < |rest| && rest[j].at == k {
        var j :| 0 <= j < |rest| && rest[j].at == k;
        assert vs[j + 1].at == k;
      }
      if j :| 0 <= j < |vs| && vs[j].at == k && j > 0 {
        assert rest[j - 1].at == k;
      }
    }
  }

  /** The address map (line 33): its keys are exactly the positions the
      loop visits, each maps to the length of the output before that
      instruction's code, the output is those codes in order, and offsets
      increase in source order. */
  lemma AddressMap(d: Dialect, src: Hex)
    requires Decode(d, src).Ok?
    ensures var vs := Walk(d, src, 0).value; var p := Decode(d, src).value;
      && p.out == Code(vs)
      && (forall k :: k in p.addr <==> exists j :: 0 <= j < |vs| && vs[j].at == k)
      && (forall j :: 0 <= j < |vs| ==> p.addr[vs[j].at] == Offset(vs, j))
      && (forall j :: 0 <= j < |vs| ==> Decode1(d, src[vs[j].at..]) == Ok(vs[j].step))
      && (forall k, k' :: k in p.addr && k' in p.addr && k < k' ==> p.addr[k] < p.addr[k'])
  {
    var vs := Walk(d, src, 0).value;
    var empty := Pass1([], map[], []);
    WalkChain(d, src, 0);
    BuildOutput(empty, vs);
    forall k
      ensures k in Build(empty, vs).addr <==> exists j :: 0 <= j < |vs| && vs[j].at == k
    {
      BuildAddr(empty, vs, 0, |src|, k);
    }
    forall j | 0 <= j < |vs|
      ensures Build(empty, vs).addr[vs[j].at] == Offset(vs, j)
      ensures Decode1(d, src[vs[j].at..]) == Ok(vs[j].step)
    {
      BuildAddr(empty, vs, 0, |src|, vs[j].at);
      WalkDecodes(d, src, 0, j);
    }
  }

  lemma OffsetStep(vs: seq<Visit>, j: nat)
    requires 0 < j <= |vs|
    ensures Offset(vs, j) == |vs[0].step.code| + Offset(vs[1..], j - 1)
  {
    assert vs[..j] == [vs[0]] + vs[1..][..j - 1];
  }

  /** Record `r` is the one the `j`-th visit leaves when the output before
      the visits is `o` digits long. */
  ghost predicate RecordOf(vs: seq<Visit>, o: nat, j: nat, r: Reloc)
    requires j < |vs|
  {
    match vs[j].step.transfer
    case None => false
    case Some(t) => r == Reloc(o + Offset(vs, j) + t.field, t.target)
  }

  /** The records are exactly one per control transfer. */
  lemma {:induction false} RelocsMembers(vs: seq<Visit>, o: nat, r: Reloc)
    ensures r in Relocs(vs, o) <==> exists j: nat :: j < |vs| && RecordOf(vs, o, j, r)
    decreases |vs|
  {
    if vs != [] {
      var rest := vs[1..];
      var o' := o + |vs[0].step.code|;
      RelocsMembers(rest, o', r);
      assert vs[..0] == [];
      forall j: nat | 0 < j < |vs|
        ensures RecordOf(vs, o, j, r) <==> RecordOf(rest, o', j - 1, r)
      {
        OffsetStep(vs, j);
        assert rest[j - 1] == vs[j];
      }
      var mine := Relocs(vs, o)[..|Relocs(vs, o)| - |Relocs(rest, o')|];
      assert Relocs(vs, o) == mine + Relocs(rest, o');
      assert r in mine <==> RecordOf(vs, o, 0, r);
      if r in Relocs(vs, o) {
        if r in mine {
          assert RecordOf(vs, o, 0, r);
        } else {
          var j: nat :| j < |rest| && RecordOf(rest, o', j, r);
          assert RecordOf(vs, o, j + 1, r);
        }
      }
      if j: nat :| j < |vs| && RecordOf(vs, o, j, r) {
        if j > 0 {
          assert RecordOf(rest, o', j - 1, r);
        }
      }
    }
  }

  /** A control transfer the loop visits at `a`: its code is the x86
      prefix followed by the four operand bytes as they stand, and its
      target is twice their little-endian value (lines 85-107). */
  lemma WalkTransfer(d: Dialect, src: Hex, j: int)
    requires Walk(d, src, 0).Ok?
    requires 0 <= j < |Walk(d, src, 0).value| && Walk(d, src, 0).value[j].step.transfer.Some?
    ensures var v := Walk(d, src, 0).value[j]; var a := v.at;
      && a + 10 <= |src| && (src[a] == 7 || src[a] == 8)
      && v.step.code == TransferPrefix(src[a], src[a + 1]) + src[a + 2..a + 10]
      && v.step.transfer.value == Transfer(|TransferPrefix(src[a], src[a + 1])|, 2 * LittleEndian(src[a + 2..a + 10]))
  {
    var v := Walk(d, src, 0).value[j];
    WalkDecodes(d, src, 0, j);
    var s := src[v.at..];
    Decode1Opcodes(d, s);
    assert s[2..10] == src[v.at + 2..v.at + 10];
  }

  /** The relocation table (lines 85-107): one record per control transfer
      the loop visits, keyed by the output offset of its placeholder, that
      is the output length before the instruction plus the length of its
      x86 opcode, and holding the target the transfer names. */
  lemma RelocationTable(d: Dialect, src: Hex)
    requires Decode(d, src).Ok?
    ensures var vs := Walk(d, src, 0).value; var p := Decode(d, src).value;
      forall r :: r in p.relocs <==> exists j: nat :: j < |vs| && RecordOf(vs, 0, j, r)
  {
    var vs := Walk(d, src, 0).value;
    var empty := Pass1([], map[], []);
    BuildOutput(empty, vs);
    forall r
      ensures r in Build(empty, vs).relocs <==> exists j: nat :: j < |vs| && RecordOf(vs, 0, j, r)
    {
      RelocsMembers(vs, 0, r);
    }
  }
}

=== FILE: nibbles.dfy ===
/** Hexadecimal digit strings and the fixed-width arithmetic the translator
    performs on them: reading a digit string as a number, rendering a number
    as a zero-padded digit string, swapping byte order, and 32-bit
    two's complement. */
module Nibbles {

  /** One hexadecimal digit. The translator works on hexlified text, so every
      value it handles is a string of these; letter case is not modelled. */
  type Nibble = x: int | 0 <= x < 16

  /** A hexadecimal digit string; two digits make one byte. */
  type Hex = seq<Nibble>

  const Two31: int := 0x8000_0000
  const Two32: int := 0x1_0000_0000

  function Pow16(n: nat): (p: nat)
    ensures p >= 1
  {
    if n == 0 then 1 else 16 * Pow16(n - 1)
  }

  /** The number a digit string denotes, most significant digit first
      (Python's `int(s, 16)`). */
  function HexValue(s: Hex): (v: nat)
    ensures v < Pow16(|s|)
  {
    if |s| == 0 then 0 else 16 * HexValue(s[..|s| - 1]) + s[|s| - 1]
  }

  /** `v` written with exactly `n` digits, zero-padded on the left
      (Python's `'%0nX' % v`). */
  function ToHex(v: nat, n: nat): (s: Hex)
    requires v < Pow16(n)
    ensures |s| == n
    ensures HexValue(s) == v
  {
    if n == 0 then []
    else
      assert v / 16 < Pow16(n - 1);
      var s := ToHex(v / 16, n - 1) + [v % 16];
      assert s[..n - 1] == ToHex(v / 16, n - 1);
      s
  }

  /** Rendering is the inverse of reading: no two digit strings of one
      length denote the same number. */
  lemma {:induction false} ToHexOfValue(s: Hex)
    ensures ToHex(HexValue(s), |s|) == s
  {
    if |s| > 0 {
      var init := s[..|s| - 1];
      ToHexOfValue(init);
      var v := HexValue(s);
      assert v / 16 == HexValue(init) && v % 16 == s[|s| - 1];
      assert s == init + [s[|s| - 1]];
    }
  }

  /** The `k`-th byte of `s`: digits `2k` and `2k+1`. */
  function Byte(s: Hex, k: nat): Hex
    requires 2 * k + 2 <= |s|
  {
    s[2 * k..2 * k + 2]
  }

  /** Reverses the order of the two-digit byte groups of `a`
      (y2x86translate.py `flipBytes`): the last byte comes first. */
  function FlipBytes(a: Hex): (b: Hex)
    requires |a| % 2 == 0
    ensures |b| == |a|
    ensures forall k :: 0 <= k < |a| / 2 ==> Byte(b, k) == Byte(a, |a| / 2 - 1 - k)
  {
    if |a| == 0 then []
    else
      var rest := FlipBytes(a[2..]);
      var b := rest + a[..2];
      forall k | 0 <= k < |a| / 2 - 1
        ensures Byte(b, k) == Byte(rest, k) && Byte(a[2..], k) == Byte(a, k + 1)
      {
        assert b[2 * k..2 * k + 2] == rest[2 * k..2 * k + 2];
        assert a[2..][2 * k..2 * k + 2] == a[2 * k + 2..2 * k + 4];
      }
      assert Byte(b, |a| / 2 - 1) == Byte(a, 0);
      b
  }

  /** Flipping a concatenation flips each part and swaps them. */
  lemma {:induction false} FlipBytesAppend(x: Hex, y: Hex)
    requires |x| % 2 == 0 && |y| % 2 == 0
    ensures FlipBytes(x + y) == FlipBytes(y) + FlipBytes(x)
  {
    if |x| == 0 {
      assert x + y == y;
    } else {
      assert (x + y)[2..] == x[2..] + y;
      assert (x + y)[..2] == x[..2];
      FlipBytesAppend(x[2..], y);
      calc {
        FlipBytes(x + y);
        FlipBytes(x[2..] + y) + x[..2];
        FlipBytes(y) + FlipBytes(x[2..]) + x[..2];
        FlipBytes(y) + FlipBytes(x);
      }
    }
  }

  /** Flipping twice restores the original string. */
  lemma {:induction false} FlipBytesInvolution(a: Hex)
    requires |a| % 2 == 0
    ensures FlipBytes(FlipBytes(a)) == a
  {
    if |a| > 0 {
      FlipBytesInvolution(a[2..]);
      FlipBytesAppend(FlipBytes(a[2..]), a[..2]);
      assert FlipBytes(a[..2]) == a[..2] by {
        assert a[..2][2..] == [];
      }
      assert a == a[..2] + a[2..];
    }
  }

  /** The value of a byte string stored least significant byte first, each
      byte written as two digits, high digit first. */
  function LittleEndian(s: Hex): (v: nat)
    requires |s| % 2 == 0
    ensures v < Pow16(|s|)
  {
    if |s| == 0 then 0
    else
      var rest := LittleEndian(s[2..]);
      assert Pow16(|s|) == 256 * Pow16(|s| - 2);
      assert 256 * rest <= 256 * (Pow16(|s| - 2) - 1);
      16 * s[0] + s[1] + 256 * rest
  }

  /** Reading the byte-swapped string as a number yields the little-endian
      value of the original (`int(flipBytes(dest), 16)`). */
  lemma {:induction false} FlipBytesValue(s: Hex)
    requires |s| % 2 == 0
    ensures HexValue(FlipBytes(s)) == LittleEndian(s)
  {
    if |s| > 0 {
      FlipBytesValue(s[2..]);
      var x := FlipBytes(s[2..]);
      var y := x + [s[0]];
      var z := y + [s[1]];
      assert FlipBytes(s) == z;
      assert z[..|z| - 1] == y;
      assert y[..|y| - 1] == x;
    }
  }

  /** The signed number a 32-bit two's-complement pattern stands for. */
  function Signed32(u: nat): (x: int)
    requires u < Two32
    ensures -Two31 <= x < Two31
    ensures (u - x) % Two32 == 0
  {
    if u < Two31 then u else u - Two32
  }

  /** The 32-bit two's-complement pattern of `x`
      (`(x + (1 << 32)) % (1 << 32)`, y2x86translate.py:128). */
  function TwosComplement(x: int): (u: nat)
    ensures u < Two32
    ensures (u - x) % Two32 == 0
    ensures -Two31 <= x < Two31 ==> Signed32(u) == x
  {
    (x + Two32) % Two32
  }
}

=== FILE: relocation.dfy ===
/** The relocation pass (y2x86translate.py:122-132): once every instruction's
    output offset is known, each control transfer's 4-byte placeholder is
    overwritten with the rel32 displacement to its target. */
module Relocation {
  import opened Nibbles

  /** One entry of the relocation table: the digit offset `at` of a 4-byte
      displacement field in the output, and the jump target as a digit offset
      into the source (twice the target's byte address). */
  datatype Reloc = Reloc(at: nat, target: nat)

  /** The rel32 value for a field at output digit `at` whose target
      instruction starts at output digit `dest` (lines 126-128): the distance
      in bytes from the end of the field, as 32-bit two's complement. When the
      distance is a whole number of bytes that fits the field, reading the
      value back as signed and adding the end of the field lands on `dest`. */
  function Displacement(dest: nat, at: nat): (u: nat)
    ensures u < Two32
    ensures (dest - at) % 2 == 0 && -Two32 <= dest - (at + 8) < Two32 ==> 2 * Signed32(u) + at + 8 == dest
  {
    TwosComplement((dest - (at + 8)) / 2)
  }

  /** The eight digits written into the field: the displacement rendered as
      `'%08X'` and byte-swapped (lines 129-130), i.e. stored little-endian. */
  function FieldDigits(dest: nat, at: nat): (f: Hex)
    ensures |f| == 8
    ensures LittleEndian(f) == Displacement(dest, at)
  {
    var u := Displacement(dest, at);
    assert Pow16(8) == Two32;
    var h := ToHex(u, 8);
    FlipBytesValue(FlipBytes(h));
    FlipBytesInvolution(h);
    FlipBytes(h)
  }

  /** Replaces the eight digits at `at` (line 132). */
  function Splice(s: Hex, at: nat, f: Hex): (r: Hex)
    requires at + 8 <= |s| && |f| == 8
    ensures |r| == |s|
    ensures r[at..at + 8] == f
    ensures forall k :: 0 <= k < |s| && !(at <= k < at + 8) ==> r[k] == s[k]
  {
    s[..at] + f + s[at + 8..]
  }

  /** Applies one record (lines 124-132): a target that is a key of the
      address map gets its field rewritten; any other target leaves the
      buffer as it is. */
  function Patch(out: Hex, addr: map<nat, nat>, r: Reloc): (o: Hex)
    requires r.at + 8 <= |out|
    ensures |o| == |out|
    ensures r.target !in addr ==> o == out
    ensures r.target in addr ==> o[r.at..r.at + 8] == FieldDigits(addr[r.target], r.at)
    ensures forall k :: 0 <= k < |out| && !(r.at <= k < r.at + 8) ==> o[k] == out[k]
  {
    if r.target in addr then Splice(out, r.at, FieldDigits(addr[r.target], r.at)) else out
  }

  /** Every record's field lies inside the buffer. */
  ghost predicate Fits(out: Hex, rs: seq<Reloc>)
  {
    forall j :: 0 <= j < |rs| ==> rs[j].at + 8 <= |out|
  }

  /** No two records' fields overlap. */
  ghost predicate Disjoint(rs: seq<Reloc>)
  {
    forall j, j' :: 0 <= j < |rs| && 0 <= j' < |rs| && j != j' ==>
      rs[j].at + 8 <= rs[j'].at || rs[j'].at + 8 <= rs[j].at
  }

  /** Digit `k` lies in the field of record `r`. */
  ghost predicate Covers(r: Reloc, k: int)
  {
    r.at <= k < r.at + 8
  }

  /** Applies every record in turn (the loop of lines 123-132). */
  function Resolve(out: Hex, addr: map<nat, nat>, rs: seq<Reloc>): (o: Hex)
    requires Fits(out, rs)
    ensures |o| == |out|
    decreases |rs|
  {
    if rs == [] then out else Resolve(Patch(out, addr, rs[0]), addr, rs[1..])
  }

  /** A digit no resolvable record covers keeps its pass-1 value. */
  lemma {:induction false} ResolveUntouched(out: Hex, addr: map<nat, nat>, rs: seq<Reloc>, k: int)
    requires Fits(out, rs)
    requires 0 <= k < |out|
    requires forall j :: 0 <= j < |rs| && Covers(rs[j], k) ==> rs[j].target !in addr
    ensures Resolve(out, addr, rs)[k] == out[k]
    decreases |rs|
  {
    if rs != [] {
      var o := Patch(out, addr, rs[0]);
      assert Covers(rs[0], k) ==> rs[0].target !in addr;
      assert forall j :: 0 <= j < |rs[1..]| ==> rs[1..][j] == rs[j + 1];
      ResolveUntouched(o, addr, rs[1..], k);
    }
  }

  /** A digit in the field of a resolvable record holds that record's
      displacement digit, whatever the order of the records. */
  lemma {:induction false} ResolvePatched(out: Hex, addr: map<nat, nat>, rs: seq<Reloc>, j: int, k: int)
    requires Fits(out, rs) && Disjoint(rs)
    requires 0 <= j < |rs| && rs[j].target in addr && Covers(rs[j], k)
    ensures Resolve(out, addr, rs)[k] == FieldDigits(addr[rs[j].target], rs[j].at)[k - rs[j].at]
    decreases |rs|
  {
    var o := Patch(out, addr, rs[0]);
    var rest := rs[1..];
    assert Fits(o, rest);
    if j == 0 {
      assert o[k] == o[rs[0].at..rs[0].at + 8][k - rs[0].at];
      forall i | 0 <= i < |rest|
        ensures !Covers(rest[i], k)
      {
        assert rest[i] == rs[i + 1];
      }
      ResolveUntouched(o, addr, rest, k);
    } else {
      assert Disjoint(rest) by {
        forall i, i' | 0 <= i < |rest| && 0 <= i' < |rest| && i != i'
          ensures rest[i].at + 8 <= rest[i'].at || rest[i'].at + 8 <= rest[i].at
        {
          assert rest[i] == rs[i + 1] && rest[i'] == rs[i' + 1];
        }
      }
      assert rest[j - 1] == rs[j];
      ResolvePatched(o, addr, rest, j - 1, k);
    }
  }

  /** The field of a resolvable record ends up holding its displacement,
      little-endian. */
  lemma ResolvedField(out: Hex, addr: map<nat, nat>, rs: seq<Reloc>, j: int)
    requires Fits(out, rs) && Disjoint(rs)
    requires 0 <= j < |rs| && rs[j].target in addr
    ensures Resolve(out, addr, rs)[rs[j].at..rs[j].at + 8] == FieldDigits(addr[rs[j].target], rs[j].at)
  {
    var o := Resolve(out, addr, rs);
    var f := FieldDigits(addr[rs[j].target], rs[j].at);
    forall k | rs[j].at <= k < rs[j].at + 8
      ensures o[k] == f[k - rs[j].at]
    {
      ResolvePatched(out, addr, rs, j, k);
    }
  }

  /** The field of a record whose target is not an instruction start keeps
      its pass-1 digits (line 124). */
  lemma UnresolvedField(out: Hex, addr: map<nat, nat>, rs: seq<Reloc>, j: int)
    requires Fits(out, rs) && Disjoint(rs)
    requires 0 <= j < |rs| && rs[j].target !in addr
    ensures Resolve(out, addr, rs)[rs[j].at..rs[j].at + 8] == out[rs[j].at..rs[j].at + 8]
  {
    var o := Resolve(out, addr, rs);
    forall k | rs[j].at <= k < rs[j].at + 8
      ensures o[k] == out[k]
    {
      ResolveUntouched(out, addr, rs, k);
    }
  }

  /** The outcome does not depend on the order the records are applied in,
      as long as their fields do not overlap; so the unspecified iteration
      order of the source's dictionary does not matter. */
  lemma ResolveOrderIrrelevant(out: Hex, addr: map<nat, nat>, rs: seq<Reloc>, rs': seq<Reloc>)
    requires Fits(out, rs) && Fits(out, rs') && Disjoint(rs) && Disjoint(rs')
    requires multiset(rs) == multiset(rs')
    ensures Resolve(out, addr, rs) == Resolve(out, addr, rs')
  {
    var o, o' := Resolve(out, addr, rs), Resolve(out, addr, rs');
    forall k | 0 <= k < |out|
      ensures o[k] == o'[k]
    {
      if j :| 0 <= j < |rs| && Covers(rs[j], k) && rs[j].target in addr {
        assert rs[j] in multiset(rs');
        var j' :| 0 <= j' < |rs'| && rs'[j'] == rs[j];
        ResolvePatched(out, addr, rs, j, k);
        ResolvePatched(out, addr, rs', j', k);
      } else {
        ResolveUntouched(out, addr, rs, k);
        forall j' | 0 <= j' < |rs'| && Covers(rs'[j'], k)
          ensures rs'[j'].target !in addr
        {
          assert rs'[j'] in multiset(rs);
          var j :| 0 <= j < |rs| && rs[j] == rs'[j'];
        }
        ResolveUntouched(out, addr, rs', k);
      }
    }
  }
}

=== FILE: results.dfy ===
/** Failure-carrying values used by the translator model. */
module Results {

  /** A value that may be absent. */
  datatype Option<T> = None | Some(value: T)

  /** Either a successful value or the error that stopped the computation. */
  datatype Result<T, E> = Ok(value: T) | Err(error: E)
}

=== FILE: translator.dfy ===
/** The whole translation (y2x86translate.py:23-134): pass 1 decodes the
    source into x86 code with placeholders, pass 2 resolves them. */
module Translator {
  import opened Results
  import opened Nibbles
  import opened Relocation
  import opened Decoder
  import opened FirstPass
  import X86

  /** The records of a consistent pass-1 state fit the output and do not overlap. */
  lemma ConsistentRelocs(p: Pass1, n: nat)
    requires Consistent(p, n)
    ensures Fits(p.out, p.relocs) && Disjoint(p.relocs)
  {
  }

  /** Pass 2 (lines 122-132): resolves every record against the address map. */
  function Link(p: Pass1, n: nat): (x: Hex)
    requires Consistent(p, n)
    ensures |x| == |p.out|
  {
    ConsistentRelocs(p, n);
    Resolve(p.out, p.addr, p.relocs)
  }

  /** Translates a hexlified source program; fails where pass 1 fails. */
  function Translate(d: Dialect, src: Hex): (r: Result<Hex, DecodeError>)
    ensures r.Err? <==> Decode(d, src).Err?
    ensures r.Err? ==> r.error == Decode(d, src).error
    ensures r.Ok? ==> r.value == Link(Decode(d, src).value, |src|)
  {
    match Decode(d, src)
    case Err(e) => Err(e)
    case Ok(p) => Ok(Link(p, |src|))
  }

  /** The digits written for a field at `at` with an in-range, byte-aligned
      target `dest` encode the displacement that leads back to `dest`. */
  lemma FieldLandsOn(dest: nat, at: nat, len: nat)
    requires dest % 2 == 0 && at % 2 == 0
    requires dest < len && at + 8 <= len && len <= Two32
    ensures 2 * Signed32(LittleEndian(FieldDigits(dest, at))) + at + 8 == dest
  {
    assert (dest - at) % 2 == 0;
    assert -Two32 <= dest - (at + 8) < Two32;
  }

  /** Every placeholder whose target is the start of a translated
      instruction ends up holding the rel32 displacement to that
      instruction's translation: read little-endian and signed, doubled
      (bytes to digits) and added to the end of the field, it gives the
      target's output offset (lines 124-132). A placeholder whose target is
      not an instruction start keeps the source's absolute operand bytes.
      Stated for outputs of at most 2^32 digits, whose offsets fit rel32. */
  lemma LinkedField(p: Pass1, n: nat, j: int)
    requires Consistent(p, n) && |p.out| <= Two32
    requires 0 <= j < |p.relocs|
    ensures var x := Link(p, n); var r := p.relocs[j];
      && r.at + 8 <= |x|
      && (r.target in p.addr ==>
            && x[r.at..r.at + 8] == FieldDigits(p.addr[r.target], r.at)
            && LittleEndian(x[r.at..r.at + 8]) == Displacement(p.addr[r.target], r.at)
            && 2 * Signed32(LittleEndian(x[r.at..r.at + 8])) + r.at + 8 == p.addr[r.target])
      && (r.target !in p.addr ==> x[r.at..r.at + 8] == p.out[r.at..r.at + 8])
  {
    var r := p.relocs[j];
    ConsistentRelocs(p, n);
    if r.target in p.addr {
      ResolvedField(p.out, p.addr, p.relocs, j);
      FieldLandsOn(p.addr[r.target], r.at, |p.out|);
    } else {
      UnresolvedField(p.out, p.addr, p.relocs, j);
    }
  }

  /** Pass 2 changes nothing outside the placeholders. */
  lemma LinkedElsewhere(p: Pass1, n: nat, k: int)
    requires Consistent(p, n)
    requires 0 <= k < |p.out|
    requires forall j :: 0 <= j < |p.relocs| ==> !Covers(p.relocs[j], k)
    ensures Link(p, n)[k] == p.out[k]
  {
    ConsistentRelocs(p, n);
    ResolveUntouched(p.out, p.addr, p.relocs, k);
  }

  /** The field of the `j`-th visited instruction, which must be a control
      transfer, in the output of pass 1. */
  function FieldAt(vs: seq<Visit>, j: nat): nat
    requires j < |vs| && vs[j].step.transfer.Some?
  {
    Offset(vs, j) + vs[j].step.transfer.value.field
  }

  /** The record pass 1 makes for the `j`-th visit is in its table. */
  lemma RecordInTable(d: Dialect, src: Hex, j: nat) returns (jr: nat)
    requires Decode(d, src).Ok?
    requires j < |Walk(d, src, 0).value| && Walk(d, src, 0).value[j].step.transfer.Some?
    ensures var vs := Walk(d, src, 0).value; var rs := Decode(d, src).value.relocs;
      jr < |rs| && rs[jr] == Reloc(FieldAt(vs, j), vs[j].step.transfer.value.target)
  {
    var vs := Walk(d, src, 0).value;
    var r := Reloc(FieldAt(vs, j), vs[j].step.transfer.value.target);
    var rs := Decode(d, src).value.relocs;
    assert r in rs by {
      RelocationTable(d, src);
      assert RecordOf(vs, 0, j, r);
    }
    jr :| 0 <= jr < |rs| && rs[jr] == r;
  }

  /** `LinkedField` for one resolvable record. */
  lemma LinkLands(d: Dialect, src: Hex, jr: nat, at: nat, o: nat)
    requires Decode(d, src).Ok? && |Decode(d, src).value.out| <= Two32
    requires var p := Decode(d, src).value;
      && jr < |p.relocs| && p.relocs[jr].at == at
      && p.relocs[jr].target in p.addr && p.addr[p.relocs[jr].target] == o
    ensures var x := Link(Decode(d, src).value, |src|);
      && at + 8 <= |x|
      && x[at..at + 8] == FieldDigits(o, at)
      && 2 * Signed32(LittleEndian(FieldDigits(o, at))) + at + 8 == o
  {
    LinkedField(Decode(d, src).value, |src|, jr);
  }

  /** `LinkedField` for one unresolvable record. */
  lemma LinkKeeps(p: Pass1, n: nat, j: nat)
    requires Consistent(p, n)
    requires j < |p.relocs| && p.relocs[j].target !in p.addr
    ensures var x := Link(p, n); var r := p.relocs[j];
      r.at + 8 <= |x| && x[r.at..r.at + 8] == p.out[r.at..r.at + 8]
  {
    ConsistentRelocs(p, n);
    UnresolvedField(p.out, p.addr, p.relocs, j);
  }

  /** A successful translation is pass 2 applied to pass 1's state, whose
      output is the concatenation of the visited instructions' codes. */
  lemma TranslateIsLink(d: Dialect, src: Hex)
    requires Translate(d, src).Ok?
    ensures Decode(d, src).Ok? && Walk(d, src, 0).Ok?
    ensures Translate(d, src).value == Link(Decode(d, src).value, |src|)
    ensures Decode(d, src).value.out == Code(Walk(d, src, 0).value)
    ensures |Translate(d, src).value| == |Code(Walk(d, src, 0).value)|
  {
    AddressMap(d, src);
  }

  /** The translated program: every jump or call whose destination is the
      start of the `m`-th visited instruction holds the rel32 displacement
      from the end of its field to that instruction's translation (lines
      105 and 122-132). Stated for outputs of at most 2^32 digits. */
  lemma {:induction false} TranslateLinks(d: Dialect, src: Hex, j: nat, m: nat)
    requires Translate(d, src).Ok? && |Decode(d, src).value.out| <= Two32
    requires j < |Walk(d, src, 0).value| && m < |Walk(d, src, 0).value|
    requires var vs := Walk(d, src, 0).value;
      vs[j].step.transfer.Some? && vs[j].step.transfer.value.target == vs[m].at
    ensures var vs := Walk(d, src, 0).value; var x := Translate(d, src).value; var at := FieldAt(vs, j);
      && at + 8 <= |x|
      && x[at..at + 8] == FieldDigits(Offset(vs, m), at)
      && 2 * Signed32(LittleEndian(FieldDigits(Offset(vs, m), at))) + at + 8 == Offset(vs, m)
  {
    var vs := Walk(d, src, 0).value;
    var p := Decode(d, src).value;
    var jr := RecordInTable(d, src, j);
    assert vs[m].at in p.addr && p.addr[vs[m].at] == Offset(vs, m) by {
      AddressMap(d, src);
    }
    LinkLands(d, src, jr, FieldAt(vs, j), Offset(vs, m));
  }

  /** The translated program: a jump or call whose destination is no
      visited instruction's start keeps the absolute destination it was
      given in pass 1 (line 124). */
  lemma {:induction false} TranslateUnresolved(d: Dialect, src: Hex, j: nat)
    requires Translate(d, src).Ok?
    requires j < |Walk(d, src, 0).value|
    requires var vs := Walk(d, src, 0).value;
      && vs[j].step.transfer.Some?
      && forall m :: 0 <= m < |vs| ==> vs[m].at != vs[j].step.transfer.value.target
    ensures var vs := Walk(d, src, 0).value; var x := Translate(d, src).value; var at := FieldAt(vs, j);
      && |x| == |Code(vs)| && at + 8 <= |x|
      && x[at..at + 8] == Code(vs)[at..at + 8]
  {
    var vs := Walk(d, src, 0).value;
    var p := Decode(d, src).value;
    var x := Translate(d, src).value;
    var at := FieldAt(vs, j);
    assert x == Link(p, |src|) && p.out == Code(vs) by {
      TranslateIsLink(d, src);
    }
    var jr := RecordInTable(d, src, j);
    assert p.relocs[jr].at == at && p.relocs[jr].target !in p.addr by {
      AddressMap(d, src);
    }
    assert at + 8 <= |x| && x[at..at + 8] == p.out[at..at + 8] by {
      LinkKeeps(p, |src|, jr);
    }
  }

  /** The translated program is the concatenation of the visited
      instructions' codes everywhere outside the jump and call fields. */
  lemma {:induction false} TranslateElsewhere(d: Dialect, src: Hex, k: int)
    requires Translate(d, src).Ok?
    requires 0 <= k < |Code(Walk(d, src, 0).value)|
    requires var vs := Walk(d, src, 0).value;
      forall j :: 0 <= j < |vs| && vs[j].step.transfer.Some? ==> !(FieldAt(vs, j) <= k < FieldAt(vs, j) + 8)
    ensures |Translate(d, src).value| == |Code(Walk(d, src, 0).value)|
    ensures Translate(d, src).value[k] == Code(Walk(d, src, 0).value)[k]
  {
    var vs := Walk(d, src, 0).value;
    var p := Decode(d, src).value;
    TranslateIsLink(d, src);
    forall jr | 0 <= jr < |p.relocs|
      ensures !Covers(p.relocs[jr], k)
    {
      var r := p.relocs[jr];
      assert exists j: nat :: j < |vs| && RecordOf(vs, 0, j, r) by {
        RelocationTable(d, src);
        assert r in p.relocs;
      }
      var j: nat :| j < |vs| && RecordOf(vs, 0, j, r);
    }
    LinkedElsewhere(p, |src|, k);
  }

  /** The two-digit-prefixed control transfer `s[0..10]`, decoded: for the
      examples below. */
  lemma JumpDecodes(s: Hex)
    requires |s| >= 10 && s[0] == 7 && s[1] == 0
    ensures Decode1(AsWritten, s) == Ok(Step(X86.JMP_REL32 + s[2..10], 10, Some(Transfer(2, 2 * LittleEndian(s[2..10])))))
  {
    Decode1Opcodes(AsWritten, s);
  }

  /** `jmp 0x6; nop; halt`: a forward jump over a nop to a halt. */
  const JumpOverNop: Hex := [7, 0, 0, 6, 0, 0, 0, 0, 0, 0, 1, 0, 0, 0]

  const HaltStep: Step := Step(X86.HLT, 2, None)
  const NopStep: Step := Step(X86.NOP, 2, None)
  const JumpTo12: Step := Step([0xE, 9, 0, 6, 0, 0, 0, 0, 0, 0], 10, Some(Transfer(2, 12)))

  lemma JumpOverNopTail()
    ensures Walk(AsWritten, JumpOverNop, 10) == Ok([Visit(10, NopStep), Visit(12, HaltStep)])
  {
    var src := JumpOverNop;
    assert src[12..] == [0, 0];
    DecodeArm(AsWritten, src[12..]);
    WalkCons(AsWritten, src, 12, HaltStep, []);
    assert [Visit(12, HaltStep)] + [] == [Visit(12, HaltStep)];
    assert src[10..] == [1, 0, 0, 0];
    DecodeArm(AsWritten, src[10..]);
    assert Table[1].form == Fixed([9, 0]);
    WalkCons(AsWritten, src, 10, NopStep, [Visit(12, HaltStep)]);
    assert [Visit(10, NopStep)] + [Visit(12, HaltStep)] == [Visit(10, NopStep), Visit(12, HaltStep)];
  }

  lemma JumpOverNopHead()
    ensures Decode1(AsWritten, JumpOverNop) == Ok(JumpTo12)
  {
    var src := JumpOverNop;
    assert src[2..10] == [0, 6, 0, 0, 0, 0, 0, 0];
    assert LittleEndian([0, 6, 0, 0, 0, 0, 0, 0]) == 6;
    JumpDecodes(src);
    assert X86.JMP_REL32 + src[2..10] == JumpTo12.code;
  }

  /** The loop's visits for `JumpOverNop`: the jump's target is source
      digit 12, twice its operand 6. */
  lemma JumpOverNopWalk()
    ensures Walk(AsWritten, JumpOverNop, 0) == Ok([Visit(0, JumpTo12), Visit(10, NopStep), Visit(12, HaltStep)])
  {
    var src := JumpOverNop;
    JumpOverNopTail();
    JumpOverNopHead();
    assert src[0..] == src;
    WalkCons(AsWritten, src, 0, JumpTo12, [Visit(10, NopStep), Visit(12, HaltStep)]);
    assert [Visit(0, JumpTo12)] + [Visit(10, NopStep), Visit(12, HaltStep)] == [Visit(0, JumpTo12), Visit(10, NopStep), Visit(12, HaltStep)];
  }

  /** The pass-1 structures `JumpOverNop` leaves: one record, for the field
      at digit 2, aimed at source digit 12, the halt, which the address map
      sends to output digit 12. */
  const JumpOverNopState: Pass1 :=
    Pass1([0xE, 9, 0, 6, 0, 0, 0, 0, 0, 0, 9, 0, 0xF, 4], map[0 := 0, 10 := 10, 12 := 12], [Reloc(2, 12)])

  lemma JumpOverNopBuild()
    ensures Build(Pass1([], map[], []), [Visit(0, JumpTo12), Visit(10, NopStep), Visit(12, HaltStep)]) == JumpOverNopState
  {
    var vs := [Visit(0, JumpTo12), Visit(10, NopStep), Visit(12, HaltStep)];
    var st0 := Record(Pass1([], map[], []), 0, JumpTo12);
    assert st0 == Pass1(JumpTo12.code, map[0 := 0], [Reloc(2, 12)]);
    var st1 := Record(st0, 10, NopStep);
    var st2 := Record(st1, 12, HaltStep);
    assert st2.out == JumpOverNopState.out;
    assert Build(Pass1([], map[], []), vs) == Build(st0, vs[1..]);
    assert Build(st0, vs[1..]) == Build(st1, vs[2..]);
    assert Build(st1, vs[2..]) == st2;
  }

  lemma JumpOverNopPass1()
    ensures Decode(AsWritten, JumpOverNop) == Ok(JumpOverNopState)
  {
    JumpOverNopWalk();
    JumpOverNopBuild();
  }

  /** The field written for a target 10 digits (5 bytes) ahead of the
      field's start, that is one byte past its end. */
  lemma OneByteForward()
    ensures FieldDigits(12, 2) == [0, 1, 0, 0, 0, 0, 0, 0]
  {
    assert Displacement(12, 2) == 1;
    assert ToHex(1, 8) == [0, 0, 0, 0, 0, 0, 0, 1];
  }

  lemma JumpOverNopConsistent()
    ensures Consistent(JumpOverNopState, 14)
  {
    var p := JumpOverNopState;
    assert p.addr.Keys == {0, 10, 12};
    forall k, k' | k in p.addr && k' in p.addr && k < k'
      ensures p.addr[k] < p.addr[k']
    {
      assert p.addr[k] == k && p.addr[k'] == k';
    }
  }

  /** The jump's field after patching: the displacement 1, from the end of
      the field over the nop to the halt. */
  lemma JumpOverNopSplice()
    ensures Splice(JumpOverNopState.out, 2, [0, 1, 0, 0, 0, 0, 0, 0])
      == [0xE, 9, 0, 1, 0, 0, 0, 0, 0, 0, 9, 0, 0xF, 4]
  {
    var out := JumpOverNopState.out;
    assert out[..2] == [0xE, 9] && out[10..] == [9, 0, 0xF, 4];
  }

  lemma JumpOverNopPatch()
    ensures Patch(JumpOverNopState.out, JumpOverNopState.addr, Reloc(2, 12))
      == [0xE, 9, 0, 1, 0, 0, 0, 0, 0, 0, 9, 0, 0xF, 4]
  {
    var p := JumpOverNopState;
    OneByteForward();
    assert 12 in p.addr && p.addr[12] == 12;
    JumpOverNopSplice();
  }

  /** Pass 2 on `JumpOverNopState`. */
  lemma JumpOverNopLinks()
    ensures Consistent(JumpOverNopState, 14)
    ensures Link(JumpOverNopState, 14) == [0xE, 9, 0, 1, 0, 0, 0, 0, 0, 0, 9, 0, 0xF, 4]
  {
    JumpOverNopConsistent();
    var p := JumpOverNopState;
    JumpOverNopPatch();
    var o := Patch(p.out, p.addr, Reloc(2, 12));
    assert Resolve(p.out, p.addr, [Reloc(2, 12)]) == Resolve(o, p.addr, []);
  }

  /** The whole translation of `JumpOverNop`. */
  lemma JumpOverNopTranslates()
    ensures Translate(AsWritten, JumpOverNop) == Ok([0xE, 9, 0, 1, 0, 0, 0, 0, 0, 0, 9, 0, 0xF, 4])
  {
    JumpOverNopPass1();
    JumpOverNopLinks();
  }

  /** An opcode the dispatch does not know stops the translation at its
      position (the source loops forever there). */
  lemma UnknownOpcodeStops()
    ensures Translate(AsWritten, [1, 0, 0xD, 0]) == Err(DecodeError(2, UnknownOpcode(0xD, 0)))
  {
    var src: Hex := [1, 0, 0xD, 0];
    assert src[2..] == [0xD, 0];
    Decode1Opcodes(AsWritten, src[2..]);
    DecodeArm(AsWritten, src);
    assert Table[1].form == Fixed([9, 0]);
    assert Walk(AsWritten, src, 2) == Err(DecodeError(2, UnknownOpcode(0xD, 0)));
    assert src[0..] == src;
  }

  /** An odd-length input never translates. The source's input comes from
      `hexlify` and always has even length; a lone last digit other than 7
      or 8 matches no arm there and the loop spins. */
  lemma OddLengthFails(d: Dialect, src: Hex)
    requires |src| % 2 == 1
    ensures Translate(d, src).Err?
    ensures Translate(d, src).error.at == |src| - 1 ==> Translate(d, src).error.fault == Truncated
  {
    WalkOddFails(d, src, 0);
  }

  /** `nop` followed by a lone digit stops at that digit. */
  lemma OddTailStops()
    ensures Translate(AsWritten, [1, 0, 0]) == Err(DecodeError(2, Truncated))
  {
    var src: Hex := [1, 0, 0];
    assert src[0..] == src;
    DecodeArm(AsWritten, src);
    assert Table[1].form == Fixed([9, 0]);
    assert src[2..] == [0];
    assert Walk(AsWritten, src, 2) == Err(DecodeError(2, Truncated));
  }

  /** `jmp 0x1`: a jump into the middle of an instruction. */
  const JumpIntoItself: Hex := [7, 0, 0, 1, 0, 0, 0, 0, 0, 0]

  const JumpTo2: Step := Step([0xE, 9, 0, 1, 0, 0, 0, 0, 0, 0], 10, Some(Transfer(2, 2)))

  lemma JumpIntoItselfWalk()
    ensures Walk(AsWritten, JumpIntoItself, 0) == Ok([Visit(0, JumpTo2)])
  {
    var src := JumpIntoItself;
    assert src[0..] == src;
    assert src[2..10] == [0, 1, 0, 0, 0, 0, 0, 0];
    assert LittleEndian([0, 1, 0, 0, 0, 0, 0, 0]) == 1;
    JumpDecodes(src);
    assert X86.JMP_REL32 + src[2..10] == JumpTo2.code;
    WalkCons(AsWritten, src, 0, JumpTo2, []);
    assert [Visit(0, JumpTo2)] + [] == [Visit(0, JumpTo2)];
  }

  lemma JumpIntoItselfPass1()
    ensures Decode(AsWritten, JumpIntoItself) == Ok(Pass1(JumpTo2.code, map[0 := 0], [Reloc(2, 2)]))
  {
    JumpIntoItselfWalk();
    var empty := Pass1([], map[], []);
    var st := Record(empty, 0, JumpTo2);
    assert st == Pass1(JumpTo2.code, map[0 := 0], [Reloc(2, 2)]);
    assert Build(empty, [Visit(0, JumpTo2)]) == Build(st, []);
  }

  /** The target, source digit 2, is not an instruction start, so the
      field keeps the absolute operand. */
  lemma JumpIntoItselfTranslates()
    ensures Translate(AsWritten, JumpIntoItself) == Ok([0xE, 9, 0, 1, 0, 0, 0, 0, 0, 0])
  {
    JumpIntoItselfPass1();
    var p := Pass1(JumpTo2.code, map[0 := 0], [Reloc(2, 2)]);
    assert Resolve(p.out, p.addr, [Reloc(2, 2)]) == Resolve(p.out, p.addr, []);
  }
}

=== FILE: x86.dfy ===
/** The target instruction set: the IA-32 opcodes the translator emits and
    the ModR/M byte that names their register and memory operands, with
    opcode values as listed in the Intel 64 and IA-32 Architectures Software
    Developer's Manual, Volume 2. */
module X86 {
  import opened Results
  import opened Nibbles

  /** A general-purpose register number: eax = 0, ecx, edx, ebx, esp, ebp,
      esi, edi = 7. The source instruction set numbers them the same way. */
  type Reg = r: int | 0 <= r < 8

  const HLT: Hex := [0xF, 4]
  const NOP: Hex := [9, 0]
  const RET: Hex := [0xC, 3]
  /** MOV r/m32, r32: the r/m operand is written. */
  const MOV_RM_R: Hex := [8, 9]
  /** MOV r32, r/m32: the reg operand is written. */
  const MOV_R_RM: Hex := [8, 0xB]
  /** ADD, SUB, AND, XOR in their r/m32, r32 forms. */
  const ADD_RM_R: Hex := [0, 1]
  const SUB_RM_R: Hex := [2, 9]
  const AND_RM_R: Hex := [2, 1]
  const XOR_RM_R: Hex := [3, 1]
  const JMP_REL32: Hex := [0xE, 9]
  const CALL_REL32: Hex := [0xE, 8]
  const INT_IMM8: Hex := [0xC, 0xD]

  /** ModR/M `mod` field values: register direct, and memory with a 32-bit
      displacement. */
  const REGISTER_MODE: int := 3
  const DISP32_MODE: int := 2

  /** The condition nibble (tttn) of CMOVcc and Jcc for the source's
      condition function codes 1..6: le, l, e, ne, ge, g. */
  function CondCode(fn: int): Nibble
    requires 1 <= fn <= 6
  {
    if fn == 1 then 0xE
    else if fn == 2 then 0xC
    else if fn == 3 then 4
    else if fn == 4 then 5
    else if fn == 5 then 0xD
    else 0xF
  }

  /** CMOVcc r32, r/m32 (0F 40+cc): the reg operand is written. */
  function CMovcc(fn: int): Hex
    requires 1 <= fn <= 6
  {
    [0, 0xF, 4, CondCode(fn)]
  }

  /** Jcc rel32 (0F 80+cc). */
  function Jcc(fn: int): Hex
    requires 1 <= fn <= 6
  {
    [0, 0xF, 8, CondCode(fn)]
  }

  /** The arithmetic opcode for the source's function codes 0..3:
      add, sub, and, xor. */
  function AluOpcode(fn: int): Hex
    requires 0 <= fn <= 3
  {
    if fn == 0 then ADD_RM_R
    else if fn == 1 then SUB_RM_R
    else if fn == 2 then AND_RM_R
    else XOR_RM_R
  }

  /** MOV r32, imm32 (B8+rd). */
  function MovImm(r: Reg): Hex
  {
    [0xB, 8 + r]
  }

  /** PUSH r32 (50+rd). */
  function Push(r: Reg): Hex
  {
    [5, r]
  }

  /** POP r32 (58+rd). */
  function Pop(r: Reg): Hex
  {
    [5, 8 + r]
  }

  /** The three fields of a ModR/M byte: mod (2 bits), reg (3 bits), r/m (3 bits). */
  datatype ModRMFields = ModRMFields(mode: int, reg: Reg, rm: Reg)

  /** Reads the fields back out of a two-digit ModR/M byte. */
  function Fields(b: Hex): (f: ModRMFields)
    requires |b| == 2
    ensures 0 <= f.mode < 4
  {
    var v := 16 * (b[0] as int) + b[1];
    ModRMFields(v / 64, (v / 8) % 8, v % 8)
  }

  /** The ModR/M byte with fields mod:reg:rm packed as 2:3:3 bits, as two
      hex digits (y2x86translate.py `modRM`). */
  function ModRM(mode: int, reg: Reg, rm: Reg): (b: Hex)
    requires 0 <= mode < 4
    ensures |b| == 2
    ensures 16 * (b[0] as int) + b[1] == 64 * mode + 8 * reg + rm
  {
    // The first digit holds mod and the top two bits of reg, the second
    // the low bit of reg and rm.
    var top := if reg < 2 then 0 else if reg < 4 then 1 else if reg < 6 then 2 else 3;
    [4 * mode + top, 8 * (reg - 2 * top) + rm]
  }

  /** Reading the fields back out of a packed ModR/M byte gives the fields
      it was packed from. */
  lemma FieldsOfModRM(mode: int, reg: Reg, rm: Reg)
    requires 0 <= mode < 4
    ensures Fields(ModRM(mode, reg, rm)) == ModRMFields(mode, reg, rm)
  {
    PackedFields(mode, reg, rm);
  }

  lemma PackedFields(mode: int, reg: Reg, rm: Reg)
    requires 0 <= mode < 4
    ensures (64 * mode + 8 * reg + rm) / 64 == mode
    ensures ((64 * mode + 8 * reg + rm) / 8) % 8 == reg
    ensures (64 * mode + 8 * reg + rm) % 8 == rm
  {
    var v := 64 * mode + 8 * reg + rm;
    assert v / 8 == 8 * mode + reg;
    assert (8 * mode + reg) % 8 == reg;
  }

  /** Every two-digit byte is the ModR/M byte of its own fields. */
  lemma ModRMOfFields(b: Hex)
    requires |b| == 2
    ensures ModRM(Fields(b).mode, Fields(b).reg, Fields(b).rm) == b
  {
    var f := Fields(b);
    var v := 16 * (b[0] as int) + b[1];
    assert 64 * f.mode + 8 * f.reg + f.rm == v;
  }

  /** The registers a register-direct instruction writes and reads. */
  datatype RegMove = RegMove(dst: Reg, src: Reg)

  /** For a two-register instruction (opcode followed by a ModR/M byte with
      mod = 11): the register it writes and the other register it reads.
      The r/m32, r32 forms (MOV 89, ADD 01, SUB 29, AND 21, XOR 31) write the
      r/m operand; the r32, r/m32 forms (MOV 8B, CMOVcc 0F 4x) write the reg
      operand. None for any other code. */
  function RegisterOperands(code: Hex): Option<RegMove>
  {
    if |code| < 2 then None
    else
      var op := code[..|code| - 2];
      var f := Fields(code[|code| - 2..]);
      if f.mode != REGISTER_MODE then None
      else if op in {MOV_RM_R, ADD_RM_R, SUB_RM_R, AND_RM_R, XOR_RM_R} then Some(RegMove(f.rm, f.reg))
      else if op == MOV_R_RM || (|op| == 4 && op[..3] == [0, 0xF, 4]) then Some(RegMove(f.reg, f.rm))
      else None
  }
}
